=== FILE: README.md ===
# termony core, modelled in Dafny

termony is a terminal "now playing" widget for Spotify and Apple Music. It
shows the track, a progress bar, player buttons, half-block album art and
a synced lyrics panel that can be scrolled and clicked. This project models
the pure decisions inside its rendering and event-loop code as immutable
datatypes and pure functions, and proves properties of them.

- `Lyrics` (lyrics.dfy): the LRC parser. `parse_timestamp` turns
  `mm:ss[.frac]` into milliseconds with the two-digit-fraction rule. `parse`
  keeps the `[timestamp]text` lines of the chosen transcript.
- `RustStr` (rust_str.dfy): the standard-library string operations the code
  calls (`find`, `split`, `lines`, `trim`, `trim_matches`, `parse::<u64>`,
  `from_str_radix`), each with its documented corner cases.
- `Theme` (theme.dfy): `parse_hex`, `Theme::default`, and the
  `THEMES[id]=` lookup of `load_current_theme`, given the file contents.
- `Player` (player.dfy): `detect_active_player` and the
  `|||`-record parser of `get_current_track`.
- `Geometry` (geometry.dfy): ratatui's `Rect::contains`, with the `u16`
  saturating right and bottom edges, and first-match search over rectangles.
- `HalfBlock` (halfblock.dfy): folding a resized RGBA image into `▀` cells,
  and the vertical padding.
- `LyricsView` (lyrics_view.dfy): the panel's current line, the shown window,
  the `● ` marker and the table of click targets.
- `TimeLabel` (time_label.dfy): the `mm:ss` label.
- `AppState` (app.dfy): the `App` record, `App::new` and `handle_click`. A
  click returns the `Action` it would send to the player.
- `Ui` (ui.dfy): when a lyrics panel is laid out, where the buttons go, and
  which state a drawn frame writes back.
- `EventLoop` (event_loop.dfy): one pure step per event of the main loop,
  and the loop itself over a sequence of inputs, which ends after `q`. The
  scroll state machine covers hold expiry, scrolling, the glide back, clicks,
  keys, track and lyrics updates.
- `Base` (base.dfy): `Option`, saturating arithmetic, `filter_map`,
  `find_map`.

Times are `nat` milliseconds. The clock, whether an app is running, what a
script printed and what ratatui's layout computed are all parameters.
Downloads and player commands are returned as values (`Request`, `Command`,
`Action`); they are never performed.

The `App` record follows how `src/main.rs` uses it, not `src/app.rs`. That
means `artwork` is an `ArtworkState` (idle, loading, loaded, failed) rather
than an optional image, and `last_scroll_time` exists; `src/app.rs` defines
neither.

## Model

| member | source | states |
|---|---|---|
| Lyrics.ParseTimestamp | src/lyrics.rs:108-128 | an accepted timestamp has exactly one `:` |
| Lyrics.TimestampOf | src/lyrics.rs:110-127 | `min:sec[.frac[.more]]` is worth minutes·60000 + seconds·1000 + the fraction rule's ms (0 with no fraction) when every field parses, else nothing; pieces after the fraction are not read |
| Lyrics.TimestampFields | src/lyrics.rs:110-114 | a timestamp splits at its single colon, then at every dot of the seconds field |
| Lyrics.ClockFieldsValue | src/lyrics.rs:113-127 | the value depends only on the minutes, seconds and first fraction piece |
| Lyrics.TimestampCanonical | src/lyrics.rs:113-127 | `mm:ss.xx` with six digits is (mm·60000 + ss·1000 + xx·10) ms |
| Lyrics.CentisecondExamples | src/lyrics.rs:118-119 | "00:01.50" is 1500, "00:03.00" is 3000, "02:30.05" is 150050 |
| Lyrics.ShortFraction | src/lyrics.rs:120-122 | a one-digit fraction counts plain milliseconds, not tenths |
| Lyrics.ShortFractionExample | src/lyrics.rs:116-122 | "00:00.5" is 5 ms while "00:00.50" is 500 ms |
| Lyrics.LongFraction | src/lyrics.rs:120-122 | a three-digit fraction counts milliseconds |
| Lyrics.LongFractionExample | src/lyrics.rs:120-122 | "00:00.500" is 500 ms |
| Lyrics.NoFraction | src/lyrics.rs:123-125 | without a `.` the milliseconds are 0 |
| Lyrics.UnboundedSeconds | src/lyrics.rs:115-127 | the seconds field is not bounded by 60 |
| Lyrics.UnboundedSecondsExample | src/lyrics.rs:115-127 | "00:75" is 75000 ms |
| Lyrics.ExtraPiecesIgnored | src/lyrics.rs:114-117 | extra `.`-pieces do not change the value of the timestamp cut after its fraction |
| Lyrics.EmptyMinutesRejected | src/lyrics.rs:113 | an empty minutes field rejects the timestamp |
| Lyrics.EmptySecondsRejected | src/lyrics.rs:115 | an empty seconds field rejects the timestamp |
| Lyrics.EmptyFractionRejected | src/lyrics.rs:116-121 | an empty fraction after a `.` rejects the timestamp |
| Lyrics.ParseLine | src/lyrics.rs:86-94 | a kept line starts with `[` and contains `]` |
| Lyrics.ParseLineOf | src/lyrics.rs:86-94 | `[` ts `]` text, with no `]` in ts and ts parsing to v, gives (v, trimmed text) |
| Lyrics.ParseLineShape | src/lyrics.rs:86-94 | every kept line has that shape, with its timestamp's value and trimmed text |
| Lyrics.KeptLine | src/lyrics.rs:86-91 | a kept line's first `]` is past position 0; the text before it parses to the stored time |
| Lyrics.ParseLines | src/lyrics.rs:85-96 | no more lines come out than go in, and every line that parses is kept |
| Lyrics.ParseLinesAppend | src/lyrics.rs:85-96 | parsing distributes over concatenation: order kept, rejected lines drop only themselves |
| Lyrics.ParseLinesEmpty | src/lyrics.rs:85-96 | no line comes out exactly when every line is rejected |
| Lyrics.ParseLinesFrom | src/lyrics.rs:85-96 | each output is the parse of some input line, and there are no more outputs than inputs |
| Lyrics.ParseText | src/lyrics.rs:105 | a `Some` result is never empty |
| Lyrics.Parse | src/lyrics.rs:78-106 | a `Some` result is never empty |
| Lyrics.ParseChoosesTranscript | src/lyrics.rs:79 | synced text is used whenever present; plain text only when synced is absent; neither gives `None` |
| Lyrics.ParseTextNone | src/lyrics.rs:85-105 | `None` exactly when every line is rejected, otherwise all parsed lines in order |
| Lyrics.EmptySyncedHidesPlain | src/lyrics.rs:79 | an empty synced transcript gives `None` even when plain text exists |
| Lyrics.FirstAfter | src/ui.rs:394-395 | the first line stamped after the position, all before it at or before it; `None` when none is |
| RustStr.Split | src/lyrics.rs:110 | `split(c)` yields one more piece than there are `c`s, each `c`-free, joining back to the input |
| RustStr.SplitJoin | src/lyrics.rs:114 | splitting `c`-free pieces joined by `c` gives the pieces back |
| RustStr.SplitStr | src/player.rs:112 | splitting on the triple-pipe separator yields at least one piece, none holding the separator, joining back to the input; one piece exactly when the separator is absent, otherwise the first piece ends at its first occurrence |
| RustStr.SplitStrJoinStr | src/player.rs:112 | splitting pieces joined by the separator gives them back when no piece holds its first character |
| RustStr.Lines | src/lyrics.rs:85 | `lines()` yields pieces free of line feeds, none for empty text |
| RustStr.LinesTerminated | src/theme.rs:62 | `lines()` undoes line-feed termination |
| RustStr.FindChar | src/lyrics.rs:86 | `find(c)` is the first position holding `c`, `None` exactly when `c` is absent |
| RustStr.FindStr | src/theme.rs:63 | `find(key)` is the first occurrence of the key |
| RustStr.FindStrFirst | src/theme.rs:63 | an occurrence with none before it is exactly what `find` returns |
| RustStr.TrimStart | src/lyrics.rs:89 | `trim_start` drops exactly the leading whitespace |
| RustStr.TrimEnd | src/lyrics.rs:89 | `trim_end` drops exactly the trailing whitespace |
| RustStr.TrimIdempotent | src/theme.rs:46 | trimming twice is trimming once |
| RustStr.TrimStartMatches | src/theme.rs:91 | `trim_start_matches('#')` drops exactly the leading `#`s |
| RustStr.TrimMatchesWrapped | src/theme.rs:66 | `trim_matches('"')` unquotes a quote-free value |
| RustStr.ParseU64 | src/lyrics.rs:113 | `parse::<u64>` accepts only an optional `+` then digits, with values up to `u64::MAX` |
| RustStr.ParseU64Decimal | src/lyrics.rs:113 | `parse::<u64>` reads back every decimal spelling of a `u64` |
| Theme.ParseHex | src/theme.rs:90-100 | `Reset` exactly when the text without its leading `#`s is not six characters |
| Theme.StripHashes | src/theme.rs:91 | any number of leading `#`s are dropped |
| Theme.ChannelsIndependent | src/theme.rs:92-96 | each two-character pair gives its own channel; a bad pair zeroes only that channel |
| Theme.ParseHexDigits | src/theme.rs:93-96 | six hex digits of either case parse to the channels they spell |
| Theme.ParseFormatHex | src/theme.rs:90-100 | round trip: `#rrggbb` parses back to `Rgb(r, g, b)` |
| Theme.Default | src/theme.rs:22-37 | the fallback theme is named "Catppuccin Mocha" and every colour is an RGB value |
| Theme.DefaultHexCodes | src/theme.rs:26-35 | each default colour is what `parse_hex` reads from the `#rrggbb` code written beside it |
| Theme.ThemeLineRoundTrip | src/theme.rs:60-83 | a line holding `THEMES[id]=`, first occurring after a prefix of any text, then quoted pipe-joined fields yields their theme with at least eleven fields, and nothing with fewer |
| Theme.KeyFound | src/theme.rs:63-65 | the key is found where it occurs and the value is the text after it |
| Theme.ValueRoundTrip | src/theme.rs:66-82 | the quoted value splits back into its fields; fields 0-10 make the theme |
| Theme.ThemeFromLineAt | src/theme.rs:63-83 | a line whose first occurrence of the key is at p yields what the text after position p + the key's length reads as |
| Theme.ThemeFromLineAbsent | src/theme.rs:63 | a line in which the key occurs nowhere yields nothing |
| Theme.FindTheme | src/theme.rs:62-87 | the first qualifying line wins whatever follows; with none the result is exactly `Theme::default()`; any other result is the theme of some line |
| Theme.LoadThemeFallback | src/theme.rs:40-60 | a missing cache or definitions file gives the default; the id is used trimmed |
| Theme.LoadTheme | src/theme.rs:40-88 | a missing cache or definitions file gives the default; any other result is the theme of some definitions line holding the key of the trimmed id |
| Player.DetectActivePlayer | src/player.rs:30-38 | Spotify whenever it runs, Music only when Spotify does not, none when neither runs |
| Player.StateOf | src/player.rs:119-123 | only "playing" and "paused" map to those states, anything else is stopped |
| Player.ArtworkOf | src/player.rs:135 | no artwork URL exactly when the field is empty or "NONE", else the field verbatim |
| Player.ParseTrackOutput | src/player.rs:106-138 | "STOPPED" gives no track; a track's source is the detected app |
| Player.GetCurrentTrack | src/player.rs:67-141 | a track needs a running app and a successful script; its source is Spotify whenever Spotify runs |
| Player.ParseJoinedFields | src/player.rs:112-137 | seven or more fields joined by the triple-pipe separator give their track, extra fields ignored; fewer give none |
| Player.JoinedFieldsNotStopped | src/player.rs:108-112 | a record with a separator is never "STOPPED" |
| Player.NoSeparatorNoTrack | src/player.rs:112-115 | a record without a separator gives no track |
| Geometry.Contains | src/app.rs:56-62 | a cell is inside exactly when it lies in the rectangle's columns and rows, and no cell on row or column 65535 is, as the `u16` edges saturate |
| Geometry.ContainsOffsets | src/app.rs:63-67 | a contained cell lies less than `width` right of the origin, so `relative_x < width` |
| Geometry.EmptyContainsNothing | src/app.rs:45-48 | a zero-size rectangle contains no cell |
| Geometry.FirstContaining | src/main.rs:175-189 | the first rectangle containing the cell, with none before it; `None` exactly when none contains it |
| HalfBlock.PairRow | src/ui.rs:210-227 | a text row has one cell per pixel column |
| HalfBlock.Fold | src/ui.rs:196-229 | an H-row image gives ⌈H/2⌉ text rows of W cells |
| HalfBlock.PairRowCell | src/ui.rs:210-219 | cell x shows pixel x of the upper and of the lower row |
| HalfBlock.FoldCell | src/ui.rs:208-219 | cell (r, x) has fg pixel (x, 2r), bg pixel (x, 2r+1), or (x, 2r) again on the last row of an odd image |
| HalfBlock.PairRowHalves | src/ui.rs:218-225 | a row's foregrounds and backgrounds are the colours of its two pixel rows |
| HalfBlock.UnfoldFold | src/ui.rs:208-229 | folding loses only alpha: the cell halves are the image's colours, the last row twice when H is odd |
| HalfBlock.PaddingCentres | src/ui.rs:196-199 | with H ≤ 2·avail the image fits under its padding, leaving the padding or one more row below |
| HalfBlock.PaddingTop | src/ui.rs:196-199 | the padding is half the rows the image leaves free, rounded down: 2p ≤ free rows ≤ 2p + 1, with free rows saturating at 0 |
| HalfBlock.Render | src/ui.rs:184-229 | nothing drawn exactly when a target size is 0; otherwise the padding lines, then ⌈H/2⌉ rows of W cells, which are the folded image |
| HalfBlock.RenderShowsImage | src/ui.rs:184-229 | read back half by half, the rows drawn under the padding are the image's colours, the last row repeated when the height is odd |
| LyricsView.NaturalIndex | src/ui.rs:394-397 | the panel's current line lies in `[0, len-1]` |
| LyricsView.NaturalIndexIsLastStarted | src/ui.rs:394-397 | for sorted lyrics it is the last line that has started |
| LyricsView.NaturalIndexMonotone | src/ui.rs:394-397 | it never moves back as the position advances, even for unsorted timestamps |
| LyricsView.ViewWindow | src/ui.rs:399-406 | `start ≤ end ≤ len`, `end - start = min(height, len - start)`, manual start clamps to the last line; in auto mode the window starts at 0 exactly when the current line is in the top half of the panel, and otherwise exactly half a panel above it |
| LyricsView.Render | src/ui.rs:390-431 | one line and one hitbox per shown lyric; hitbox k is row `inner.y + k`, full width, height 1, with that line's timestamp |
| LyricsView.MarkedIsCurrent | src/ui.rs:410-422 | exactly the current line carries the marker, and in auto mode it is shown |
| LyricsView.MarkedRowCentred | src/ui.rs:399-422 | in auto mode the marked line is on row `min(current, height / 2)` of the panel |
| LyricsView.ClickRowHitsLine | src/ui.rs:429-431 | a click on panel row k hits hitbox k first; below the last line it hits none |
| TimeLabel.ClockSplit | src/ui.rs:307-310 | seconds < 60 and `mm·60000 + ss·1000 ≤ ms <` that + 1000 |
| TimeLabel.Pad2 | src/ui.rs:306 | `{:02}` prints at least two digits spelling the number |
| TimeLabel.Clock | src/ui.rs:305-311 | the label is minutes, a colon and two seconds digits; the minutes have at least two digits and read back the whole minutes, the seconds read back a value below 60 |
| TimeLabel.ClockReadsBack | src/ui.rs:305-311 | a printed `mm:ss` parses back, as a lyric timestamp, to the time cut to whole seconds |
| AppState.New | src/app.rs:36-54 | running, no track, lyrics, artwork, offset or hitboxes, zero-size button rects |
| AppState.NewIgnoresClicks | src/app.rs:45-48 | before the first frame no click acts |
| AppState.HandleClick | src/app.rs:56-74 | prev, play, next, progress tested in that order and the first containing rect acts; a seek needs a track with duration > 0 and has `relative_x < width`, `width ≥ 1` |
| AppState.FirstTargetActs | src/app.rs:57-63 | the action is that of the first containing target; a cell in none does nothing |
| AppState.SeekWithinTrack | src/app.rs:66-69 | a seek target lies in `[0, duration)` |
| Ui.LyricsPanel | src/ui.rs:66-108 | a panel exists iff lyrics are on and either the terminal is at least 90 wide outside tmux or at least 40 high; beside the card iff wide and not in tmux |
| Ui.PlaceButtons | src/ui.rs:344-350 | three 7-by-1 buttons on the area's first row; play starts 3 and prev 13 cells left of the middle, floored at 0; next starts 7 cells right of it |
| Ui.PanelMonotone | src/ui.rs:66-108 | growing the terminal never removes the panel |
| Ui.ButtonsApart | src/ui.rs:344-350 | with room left of the middle the buttons are ordered, three cells apart, and disjoint |
| Ui.NarrowButtonsOverlap | src/ui.rs:348-349 | near the left edge prev and play overlap and the shared cell acts as prev |
| Ui.FrameHitboxes | src/ui.rs:364-392 | without a panel the old table survives; with a panel and no lyrics it is empty; otherwise it is the panel's own hitboxes, one row rect per shown line |
| Ui.DrawFrame | src/ui.rs:299-388 | a frame writes only the progress rect, the buttons and the hitboxes, and where each comes from |
| EventLoop.MainNaturalIndex | src/main.rs:200-203 | the loop's current line is below `len`, and 0 when no line is stamped after the position |
| EventLoop.NaturalIndicesAgree | src/main.rs:200-203 | the loop and the panel agree iff some line is stamped after the position or there is at most one line |
| EventLoop.EndOfSongDisagreement | src/main.rs:319-322 | past the last line of a two-line song the loop picks line 0, the panel line 1 |
| EventLoop.Expire | src/main.rs:155-160 | the timer is dropped iff 3000 ms have passed; the offset and all else are kept |
| EventLoop.ScrollDown | src/main.rs:197-211 | needs lyrics and a track, else no change; seeds from the current line, then `min(off+1, len-1)`, timer set to now |
| EventLoop.ScrollUp | src/main.rs:213-227 | needs lyrics and a track, else no change; seeds from the current line, then `off-1` floored at 0, timer set to now |
| EventLoop.UpUndoesDown | src/main.rs:197-227 | a scroll up undoes a scroll down that was not stopped at the last line |
| EventLoop.DownUndoesUp | src/main.rs:197-227 | a scroll down undoes a scroll up that was not stopped at line 0 |
| EventLoop.Tick | src/main.rs:314-337 | only with no timer, an offset, lyrics and a track; one line toward the target, cleared at the target; nothing else changes |
| EventLoop.GlideApproaches | src/main.rs:325-330 | k ≤ distance ticks move exactly k lines toward the target, never past it |
| EventLoop.GlideEnds | src/main.rs:314-337 | the offset stays set for as many ticks as the distance to the target and is cleared by the next one |
| EventLoop.TrackIdCollision | src/main.rs:248 | ("ab","c") and ("a","bc") have the same identity |
| EventLoop.TrackUpdate | src/main.rs:245-310 | a new identity clears lyrics, offset and timer and asks for lyrics; the same identity keeps them; no track resets identity, URL and artwork |
| EventLoop.CollidingTrackKeepsLyrics | src/main.rs:248-254 | a different track with a colliding identity keeps the old lyrics and offset |
| EventLoop.LyricsUpdate | src/main.rs:311 | lyrics are installed as they come; nothing else changes |
| EventLoop.StaleOffsetAfterLyricsUpdate | src/main.rs:311 | the kept offset can exceed the new `len-1`; the panel then clamps to the last line |
| EventLoop.LeftClick | src/main.rs:171-194 | the first containing hitbox wins: it seeks, moves the track position, clears the offset and keeps the timer; otherwise `handle_click` decides |
| EventLoop.HiddenPanelStillSeeks | src/main.rs:155-194 | after a frame without a panel, a click on an old hitbox still seeks to its line |
| EventLoop.Step | src/main.rs:164-339 | only a key changes whether the widget runs; only a click or a key gives a command; a click gives exactly one, `Click(NoAction)` (no player call) when it hits nothing; only a track update asks for downloads or touches the loop's own identity and URL; a scroll with lyrics and a track stamps the hold timer with the event's time |
| EventLoop.Iteration | src/main.rs:153-339 | a pass checks the hold timer at the top-of-pass reading, draws, then handles the event; only a key stops the widget, only clicks and keys give commands, only track updates give requests, and a scroll is stamped with the reading taken once the event arrived |
| EventLoop.IterationClick | src/main.rs:153-194 | a pass with a left click checks the hold timer, draws the frame, then handles the click on the state the frame left |
| EventLoop.PanelClickSeeksLine | src/ui.rs:364-431 | after a frame with a panel, a click on row k of the panel first hits the frame's k-th target, which carries the timestamp of line k of the shown window; below the last shown line it hits no target |
| EventLoop.KeyPress | src/main.rs:232-242 | `q` stops the widget and nothing else changes; space, `n`, `p`, `+`/`=`, `-`/`_` each ask for exactly their player command; any other key asks for nothing |
| EventLoop.QuitStopsLoop | src/main.rs:153-342 | the pass that reads `q` stops the loop with no commands, and no later input is looked at |
| EventLoop.RunAppend | src/main.rs:153-342 | while the widget keeps running, running two stretches of input in turn is running them together |
| EventLoop.RunWithQuiet | src/main.rs:153-342 | for any pass function, passes that never command, never request, or never stop a running loop make a whole run that does not either |
| EventLoop.RunOnlyKeysStop | src/main.rs:153-342 | a run without clicks or keys asks the player for nothing, one without track updates downloads nothing, and one without keys leaves a running widget running |

## Left out

- Concurrency and plumbing: the tokio tasks, the channel, terminal setup and
  tmux spawning. Events are a sequence of inputs to `EventLoop.Run` instead.
- The player calls behind the keys (`play_pause`, `next`, `prev`,
  `volume_up`, `volume_down`): `EventLoop.KeyPress` returns them as `Press`
  commands, and their results are ignored as in the source.
- ratatui's line wrapping (`Wrap { trim: true }`, src/ui.rs:436) is not
  modelled: a shown lyric line wider than the panel takes more than one row
  on screen while its hitbox keeps one row, so the row-to-line
  correspondence of `EventLoop.PanelClickSeeksLine` and
  `LyricsView.ClickRowHitsLine` is the one of the hitbox table, and it
  matches the screen only while no shown line is wider than the panel.
- Running `pgrep` and `osascript` (`is_app_running`, `run_script`): their
  results are the parameters of `Player.GetCurrentTrack`.
- The lrclib HTTP lookup, the iTunes search and the image download and
  decode (src/artwork.rs). They appear only as `Request` values; their results
  come back as events.
- Reading the theme files: `Theme.LoadTheme` takes their contents.
- Image resizing: the resized image is an input to `HalfBlock.Render`. Its
  precondition is the library's fit guarantee (`W ≤ target_w`, `H ≤ target_h`).
- ratatui's `Layout::split` arithmetic, widget styling, the credits title and
  the visualizer: the layout's rectangles are inputs (`Ui.FrameLayout`).
- src/spotify.rs is not part of this model; it is not one of the program's
  modules. examples/reproduce_issue.rs is not part of this model either.
- Player.ParseTrackOutput: converting fields 3 and 4 through `f64` is not
  modelled. Both conversions are function parameters.
- AppState.SeekWithinTrack: the seek is stated in exact real arithmetic and
  milliseconds, not in the source's `f64` seconds.
- EventLoop.LeftClick: the seek is returned as the line's millisecond
  timestamp, not as `f64` seconds.
- EventLoop.Expire: `Instant::elapsed().as_secs() >= 3` is modelled as at
  least 3000 ms between two clock readings. Each pass carries two readings:
  `now` for the hold check at the top of the pass (src/main.rs:155-156) and
  `at` for the scroll stamp once the event has arrived (src/main.rs:210,
  226). That `at` is no earlier than `now` is documented on `Input`, not
  required.
- EventLoop.RunWith and EventLoop.Run have no contract of their own:
  `EventLoop.RunWithQuiet`, `EventLoop.RunOnlyKeysStop`,
  `EventLoop.QuitStopsLoop` and `EventLoop.RunAppend` state what a run does.
- Fixed-width overflow: `u64` sums in `parse_timestamp`, the `u16`
  `inner.y + offset` and the `u16` `mid_x + 7` of the next button
  (src/ui.rs:350) are unbounded `nat`s. `Rect::contains` keeps its `u16`
  saturating edges.
- Theme.ParseHex: stated for ASCII text only. The source slices by byte
  offset and can panic inside a multi-byte character.
- Theme.FindTheme and Theme.LoadTheme: stated for ASCII definitions only,
  for the same reason.
- TimeLabel.Label has no contract of its own. Its two halves are covered by
  `TimeLabel.ClockReadsBack`.

=== FILE: app.dfy ===
/** The widget's state (`App` of `src/app.rs`, with the fields the event
    loop of `src/main.rs` uses: the scroll timer and the artwork download
    state) and the click dispatch of `handle_click`. Player commands are
    not issued here: a click yields the `Action` it would send. */
module AppState {
  import opened Base
  import opened Geometry
  import opened LyricsView
  import Lyrics
  import Player
  import Theme
  import HalfBlock

  /** Where the album art stands: nothing yet, a download running, the
      downloaded image, or a failed download. The image is resized only
      when a frame is drawn. */
  datatype ArtworkState = Idle | Loading | Loaded(image: HalfBlock.Image, width: nat) | Failed

  /** The whole widget state. Times are milliseconds on the loop's clock;
      `lyricsOffset` is the manual scroll position (`None` follows the
      song) and `lastScrollTime` the time of the last scroll. */
  datatype App = App(
    theme: Theme.Theme,
    isRunning: bool,
    track: Option<Player.TrackInfo>,
    lyrics: Option<seq<Lyrics.LyricLine>>,
    artwork: ArtworkState,
    prevBtn: Rect,
    playBtn: Rect,
    nextBtn: Rect,
    progressRect: Rect,
    hitboxes: seq<Hitbox>,
    lyricsOffset: Option<nat>,
    lastScrollTime: Option<nat>,
    showLyrics: bool,
    isTmux: bool)

  /** `App::new`, given the theme loaded at start-up. */
  function New(showLyrics: bool, isTmux: bool, theme: Theme.Theme): (a: App)
    ensures a.isRunning && a.track.None? && a.lyrics.None? && a.artwork == Idle
    ensures a.hitboxes == [] && a.lyricsOffset.None? && a.lastScrollTime.None?
    ensures a.prevBtn == Zero && a.playBtn == Zero && a.nextBtn == Zero && a.progressRect == Zero
    ensures a.showLyrics == showLyrics && a.isTmux == isTmux && a.theme == theme
  {
    App(theme, true, None, None, Idle, Zero, Zero, Zero, Zero, [], None, None, showLyrics, isTmux)
  }

  /** What a click or a key asks of the player. A seek carries the click's
      column relative to the progress bar, the bar's width (at least 1) and
      the track length; the player is asked for
      `durationMs / 1000 * relativeX / width` seconds. Only keys change the
      volume. */
  datatype Action = NoAction | Prev | PlayPause | Next | Seek(relativeX: nat, width: nat, durationMs: nat)
                  | VolumeUp | VolumeDown

  /** `handle_click`: the previous, play and next buttons, then the progress
      bar, are tested in that order and the first that contains the cell
      acts; the bar seeks only within a track of known length. */
  function HandleClick(app: App, x: nat, y: nat): (act: Action)
    ensures act == Prev <==> Contains(app.prevBtn, x, y)
    ensures act == PlayPause <==> !Contains(app.prevBtn, x, y) && Contains(app.playBtn, x, y)
    ensures act == Next <==>
              !Contains(app.prevBtn, x, y) && !Contains(app.playBtn, x, y) && Contains(app.nextBtn, x, y)
    ensures act.Seek? <==>
              !Contains(app.prevBtn, x, y) && !Contains(app.playBtn, x, y) && !Contains(app.nextBtn, x, y)
              && Contains(app.progressRect, x, y) && app.track.Some? && app.track.value.durationMs > 0
    ensures act.Seek? ==>
              act.durationMs == app.track.value.durationMs
              && act.relativeX == x - app.progressRect.x
              && 1 <= act.width && act.relativeX < act.width
    ensures !act.VolumeUp? && !act.VolumeDown?
  {
    if Contains(app.prevBtn, x, y) then Prev
    else if Contains(app.playBtn, x, y) then PlayPause
    else if Contains(app.nextBtn, x, y) then Next
    else if Contains(app.progressRect, x, y) then
      match app.track
      case Some(track) =>
        if track.durationMs > 0 then
          ContainsOffsets(app.progressRect, x, y);
          Seek(SatSub(x, app.progressRect.x), Max(app.progressRect.width, 1), track.durationMs)
        else NoAction
      case None => NoAction
    else NoAction
  }

  /** The click targets in the order `handle_click` tries them. */
  function Targets(app: App): seq<Rect>
  {
    [app.prevBtn, app.playBtn, app.nextBtn, app.progressRect]
  }

  /** A click is handled by the first target containing it, and a cell
      outside all four does nothing. */
  lemma FirstTargetActs(app: App, x: nat, y: nat)
    ensures FirstContaining(Targets(app), x, y) == Some(0) <==> HandleClick(app, x, y) == Prev
    ensures FirstContaining(Targets(app), x, y) == Some(1) <==> HandleClick(app, x, y) == PlayPause
    ensures FirstContaining(Targets(app), x, y) == Some(2) <==> HandleClick(app, x, y) == Next
    ensures HandleClick(app, x, y).Seek? ==> FirstContaining(Targets(app), x, y) == Some(3)
    ensures FirstContaining(Targets(app), x, y).None? ==> HandleClick(app, x, y) == NoAction
  {
    var t := Targets(app);
    assert t[0] == app.prevBtn && t[1] == app.playBtn && t[2] == app.nextBtn && t[3] == app.progressRect;
  }

  /** The position a seek asks for, in exact arithmetic and milliseconds. */
  function SeekTargetMs(act: Action): real
    requires act.Seek? && act.width > 0
  {
    (act.durationMs as real) * (act.relativeX as real) / (act.width as real)
  }

  /** The seek target lies in `[0, duration)`: a click never seeks past the
      end of the track. */
  lemma SeekWithinTrack(app: App, x: nat, y: nat)
    requires HandleClick(app, x, y).Seek?
    ensures 0.0 <= SeekTargetMs(HandleClick(app, x, y)) < HandleClick(app, x, y).durationMs as real
  {
    var act := HandleClick(app, x, y);
    assert act.durationMs > 0 && act.relativeX < act.width;
    ScaledBelow(act);
  }

  lemma ScaledBelow(act: Action)
    requires act.Seek? && act.durationMs > 0 && act.relativeX < act.width
    ensures 0.0 <= SeekTargetMs(act) < act.durationMs as real
  {
    var D, R, W := act.durationMs as real, act.relativeX as real, act.width as real;
    ProductBelow(D, R, W);
    QuotientBelow(D * R, W, D);
  }

  lemma ProductBelow(d: real, r: real, w: real)
    requires d > 0.0 && 0.0 <= r < w
    ensures 0.0 <= d * r < d * w
  {
    assert d * w - d * r == d * (w - r);
  }

  lemma QuotientBelow(n: real, w: real, d: real)
    requires w > 0.0 && 0.0 <= n < d * w
    ensures 0.0 <= n / w < d
  {
    var q := n / w;
    assert q * w == n;
    assert (d - q) * w == d * w - n;
  }

  /** Before the first frame every target is empty, so no click acts. */
  lemma NewIgnoresClicks(showLyrics: bool, isTmux: bool, theme: Theme.Theme, x: nat, y: nat)
    ensures HandleClick(New(showLyrics, isTmux, theme), x, y) == NoAction
  {
    EmptyContainsNothing(Zero, x, y);
  }
}

=== FILE: base.dfy ===
/** Shared vocabulary of the model: an `Option` type and the unsigned
    arithmetic that the Rust code relies on (`saturating_sub`, `min`, `max`).
    Integers are unbounded `nat`s; where a fixed width matters the bound is
    written out. */
module Base {

  /** Rust's `Option<T>`. */
  datatype Option<+T> = None | Some(value: T)

  /** `u64::MAX`, the largest value `str::parse::<u64>` accepts. */
  const U64_MAX: nat := 0xFFFF_FFFF_FFFF_FFFF

  /** `u16::MAX`, the bound of terminal coordinates. */
  const U16_MAX: nat := 0xFFFF

  /** A `u8` colour channel. */
  type Byte = x: nat | x < 256

  /** `a.saturating_sub(b)` on an unsigned integer. */
  function SatSub(a: nat, b: nat): nat
  {
    if a >= b then a - b else 0
  }

  function Min(a: nat, b: nat): nat
  {
    if a <= b then a else b
  }

  function Max(a: nat, b: nat): nat
  {
    if a >= b then a else b
  }

  /** Distance between two naturals. */
  function Dist(a: nat, b: nat): nat
  {
    if a >= b then a - b else b - a
  }

  /** `xs.iter().filter_map(f)`: the `Some` results of `f`, in order. */
  function FilterMap<A, B>(xs: seq<A>, f: A -> Option<B>): (r: seq<B>)
    ensures |r| <= |xs|
    ensures forall k | 0 <= k < |xs| :: f(xs[k]).Some? ==> f(xs[k]).value in r
    decreases |xs|
  {
    if |xs| == 0 then []
    else
      var rest := FilterMap(xs[1..], f);
      assert forall k | 1 <= k < |xs| :: xs[k] == xs[1..][k - 1];
      (match f(xs[0]) case Some(y) => [y] case None => []) + rest
  }

  /** Filtering distributes over concatenation. */
  lemma {:induction false} FilterMapAppend<A, B>(xs: seq<A>, ys: seq<A>, f: A -> Option<B>)
    ensures FilterMap(xs + ys, f) == FilterMap(xs, f) + FilterMap(ys, f)
    decreases |xs|
  {
    if |xs| == 0 {
      assert xs + ys == ys;
    } else {
      assert (xs + ys)[0] == xs[0];
      assert (xs + ys)[1..] == xs[1..] + ys;
      FilterMapAppend(xs[1..], ys, f);
    }
  }

  /** Nothing comes out exactly when `f` rejects every element. */
  lemma {:induction false} FilterMapEmpty<A, B>(xs: seq<A>, f: A -> Option<B>)
    ensures FilterMap(xs, f) == [] <==> forall k | 0 <= k < |xs| :: f(xs[k]).None?
    decreases |xs|
  {
    if |xs| > 0 {
      FilterMapEmpty(xs[1..], f);
      assert forall k | 1 <= k < |xs| :: xs[k] == xs[1..][k - 1];
    }
  }

  /** Every output is `f` of some input. */
  lemma {:induction false} FilterMapFrom<A, B>(xs: seq<A>, f: A -> Option<B>)
    ensures forall k | 0 <= k < |FilterMap(xs, f)| ::
              exists i | 0 <= i < |xs| :: f(xs[i]) == Some(FilterMap(xs, f)[k])
    decreases |xs|
  {
    if |xs| > 0 {
      FilterMapFrom(xs[1..], f);
      var head: seq<B> := match f(xs[0]) case Some(y) => [y] case None => [];
      var rest := FilterMap(xs[1..], f);
      assert FilterMap(xs, f) == head + rest;
      forall k | 0 <= k < |FilterMap(xs, f)|
        ensures exists i | 0 <= i < |xs| :: f(xs[i]) == Some(FilterMap(xs, f)[k])
      {
        if k < |head| {
          assert f(xs[0]) == Some(FilterMap(xs, f)[k]);
        } else {
          var i :| 0 <= i < |xs[1..]| && f(xs[1..][i]) == Some(rest[k - |head|]);
          assert f(xs[i + 1]) == Some(FilterMap(xs, f)[k]);
        }
      }
    } else {
      assert FilterMap(xs, f) == [];
    }
  }

  /** The first `Some` of a sequence of options (`find_map`). */
  function FirstSome<T>(xs: seq<Option<T>>): (r: Option<T>)
    ensures r.None? <==> forall k | 0 <= k < |xs| :: xs[k].None?
    ensures forall i | 0 <= i < |xs| ::
              xs[i].Some? && (forall j | 0 <= j < i :: xs[j].None?) ==> r == xs[i]
    ensures r.Some? ==> exists k | 0 <= k < |xs| :: xs[k] == r
    decreases |xs|
  {
    if |xs| == 0 then None
    else if xs[0].Some? then xs[0]
    else
      var r := FirstSome(xs[1..]);
      assert forall k | 1 <= k < |xs| :: xs[k] == xs[1..][k - 1];
      r
  }
}

=== FILE: event_loop.dfy ===
/** The event loop of `src/main.rs`, one pure step per event. The lyric
    scroll state is the pair (`lyricsOffset`, `lastScrollTime`) of the
    state: following the song (no offset), held after a scroll (offset and
    timer), or gliding back (offset, no timer). Times are milliseconds on
    the loop's clock, passed in; player commands and downloads are not
    issued but returned, and their results come back as later events. */
module EventLoop {
  import opened Base
  import opened Geometry
  import opened Lyrics
  import opened LyricsView
  import opened AppState
  import Player
  import Theme
  import Ui

  /** How long a scroll holds the lyrics before they glide back. */
  const HoldMs: nat := 3000

  // ---------------------------------------------------------------------
  // The current line, as the event loop computes it

  /** The line before the first one stamped after `pos`, or line 0 when no
      line is: unlike the panel, which then takes the last line. */
  function MainNaturalIndex(lyrics: seq<LyricLine>, pos: nat): (i: nat)
    ensures |lyrics| > 0 ==> i < |lyrics|
    ensures FirstAfter(lyrics, pos).None? ==> i == 0
  {
    match FirstAfter(lyrics, pos)
    case Some(k) => SatSub(k, 1)
    case None => 0
  }

  /** The loop and the panel agree on the current line exactly when some
      line is stamped after the position, or there is at most one line;
      past the last timestamp of a longer song they disagree. */
  lemma NaturalIndicesAgree(lyrics: seq<LyricLine>, pos: nat)
    ensures MainNaturalIndex(lyrics, pos) == NaturalIndex(lyrics, pos)
            <==> FirstAfter(lyrics, pos).Some? || |lyrics| <= 1
  {
  }

  /** At the end of a two-line song the loop seeds scrolling from the first
      line while the panel marks the last. */
  lemma EndOfSongDisagreement()
    ensures MainNaturalIndex([LyricLine(0, "a"), LyricLine(1000, "b")], 5000) == 0
    ensures NaturalIndex([LyricLine(0, "a"), LyricLine(1000, "b")], 5000) == 1
  {
    var l := [LyricLine(0, "a"), LyricLine(1000, "b")];
    assert FirstAfter(l, 5000).None?;
  }

  // ---------------------------------------------------------------------
  // The hold timer

  /** The check at the top of each iteration: three whole seconds after the
      last scroll the timer is dropped, and the offset kept. */
  function Expire(app: App, now: nat): (a: App)
    ensures a == app.(lastScrollTime := a.lastScrollTime)
    ensures a.lastScrollTime.None? <==>
              app.lastScrollTime.None? || SatSub(now, app.lastScrollTime.value) >= HoldMs
    ensures a.lastScrollTime.Some? ==> a.lastScrollTime == app.lastScrollTime
  {
    match app.lastScrollTime
    case Some(t) => if SatSub(now, t) >= HoldMs then app.(lastScrollTime := None) else app
    case None => app
  }

  // ---------------------------------------------------------------------
  // Scrolling

  /** Scrolling needs both lyrics and a track. */
  predicate CanScroll(app: App)
  {
    app.lyrics.Some? && app.track.Some?
  }

  /** The offset a scroll starts from: the current one, or the current line
      when there is none yet. */
  function Seed(app: App): nat
    requires CanScroll(app)
  {
    match app.lyricsOffset
    case Some(off) => off
    case None => MainNaturalIndex(app.lyrics.value, app.track.value.positionMs)
  }

  /** The last line's index. */
  function LastLine(app: App): nat
    requires app.lyrics.Some?
  {
    SatSub(|app.lyrics.value|, 1)
  }

  /** `ScrollDown`: one line further, stopping at the last line, and the
      hold starts again. */
  function ScrollDown(app: App, now: nat): (a: App)
    ensures !CanScroll(app) ==> a == app
    ensures CanScroll(app) ==>
              a == app.(lyricsOffset := a.lyricsOffset, lastScrollTime := Some(now))
              && a.lyricsOffset.Some? && a.lyricsOffset.value <= LastLine(app)
    ensures CanScroll(app) && Seed(app) < LastLine(app) ==> a.lyricsOffset == Some(Seed(app) + 1)
    ensures CanScroll(app) && Seed(app) >= LastLine(app) ==> a.lyricsOffset == Some(LastLine(app))
  {
    if CanScroll(app) then
      app.(lyricsOffset := Some(Min(Seed(app) + 1, LastLine(app))), lastScrollTime := Some(now))
    else app
  }

  /** `ScrollUp`: one line back, stopping at line 0, and the hold starts
      again. */
  function ScrollUp(app: App, now: nat): (a: App)
    ensures !CanScroll(app) ==> a == app
    ensures CanScroll(app) ==>
              a == app.(lyricsOffset := a.lyricsOffset, lastScrollTime := Some(now))
    ensures CanScroll(app) && Seed(app) > 0 ==> a.lyricsOffset == Some(Seed(app) - 1)
    ensures CanScroll(app) && Seed(app) == 0 ==> a.lyricsOffset == Some(0)
  {
    if CanScroll(app) then
      app.(lyricsOffset := Some(SatSub(Seed(app), 1)), lastScrollTime := Some(now))
    else app
  }

  /** Scrolling down and then up returns to the starting line, unless the
      first step was stopped at the last line. */
  lemma UpUndoesDown(app: App, t1: nat, t2: nat)
    requires CanScroll(app) && Seed(app) < LastLine(app)
    ensures ScrollUp(ScrollDown(app, t1), t2) == app.(lyricsOffset := Some(Seed(app)), lastScrollTime := Some(t2))
  {
    var d := ScrollDown(app, t1);
    assert CanScroll(d) && Seed(d) == Seed(app) + 1;
  }

  /** Scrolling up and then down returns to the starting line, unless the
      first step was stopped at line 0 or the start lay past the last line. */
  lemma DownUndoesUp(app: App, t1: nat, t2: nat)
    requires CanScroll(app) && 0 < Seed(app) <= LastLine(app)
    ensures ScrollDown(ScrollUp(app, t1), t2) == app.(lyricsOffset := Some(Seed(app)), lastScrollTime := Some(t2))
  {
    var u := ScrollUp(app, t1);
    assert CanScroll(u) && Seed(u) == Seed(app) - 1;
  }

  // ---------------------------------------------------------------------
  // Gliding back

  /** A tick moves the lyrics only once the hold is over and while a manual
      offset is still set. */
  predicate Gliding(app: App)
  {
    app.lastScrollTime.None? && app.lyricsOffset.Some? && CanScroll(app)
  }

  /** The line the glide returns to. */
  function Target(app: App): nat
    requires CanScroll(app)
  {
    MainNaturalIndex(app.lyrics.value, app.track.value.positionMs)
  }

  /** `Tick`: one line toward the target, or back to following the song
      once there. */
  function Tick(app: App): (a: App)
    ensures a == app.(lyricsOffset := a.lyricsOffset)
    ensures !Gliding(app) ==> a == app
    ensures Gliding(app) ==>
              var off := app.lyricsOffset.value;
              (off < Target(app) ==> a.lyricsOffset == Some(off + 1))
              && (off > Target(app) ==> a.lyricsOffset == Some(off - 1))
              && (off == Target(app) ==> a.lyricsOffset.None?)
  {
    if Gliding(app) then
      var off := app.lyricsOffset.value;
      var target := Target(app);
      if off < target then app.(lyricsOffset := Some(off + 1))
      else if off > target then app.(lyricsOffset := Some(off - 1))
      else app.(lyricsOffset := None)
    else app
  }

  /** `n` ticks with no other event between them. */
  function Ticks(app: App, n: nat): App
    decreases n
  {
    if n == 0 then app else Tick(Ticks(app, n - 1))
  }

  /** `k` steps from `off` toward `target`, for `k` up to their distance. */
  function Toward(off: nat, target: nat, k: nat): (r: nat)
    requires k <= Dist(off, target)
    ensures Dist(r, target) == Dist(off, target) - k
  {
    if off <= target then off + k else off - k
  }

  /** During a glide each tick moves exactly one line toward the target,
      never past it. */
  lemma {:induction false} GlideApproaches(app: App, k: nat)
    requires Gliding(app) && k <= Dist(app.lyricsOffset.value, Target(app))
    ensures Ticks(app, k) == app.(lyricsOffset := Some(Toward(app.lyricsOffset.value, Target(app), k)))
    decreases k
  {
    if k > 0 {
      GlideApproaches(app, k - 1);
      var off := Toward(app.lyricsOffset.value, Target(app), k - 1);
      var prev := Ticks(app, k - 1);
      assert prev == app.(lyricsOffset := Some(off));
      assert Gliding(prev) && Target(prev) == Target(app) && off != Target(app);
      var next := Some(Toward(app.lyricsOffset.value, Target(app), k));
      assert Tick(prev).lyricsOffset == next;
      assert Ticks(app, k) == Tick(prev) == prev.(lyricsOffset := next);
    }
  }

  /** A glide from `off` back to target `t` ends after exactly
      `|off - t| + 1` ticks: the offset is set until then and cleared then. */
  lemma GlideEnds(app: App)
    requires Gliding(app)
    ensures var d := Dist(app.lyricsOffset.value, Target(app));
            Ticks(app, d).lyricsOffset == Some(Target(app))
            && Ticks(app, d + 1) == app.(lyricsOffset := None)
    ensures forall k | 0 <= k <= Dist(app.lyricsOffset.value, Target(app)) ::
              Ticks(app, k).lyricsOffset.Some?
  {
    var d := Dist(app.lyricsOffset.value, Target(app));
    GlideApproaches(app, d);
    forall k | 0 <= k <= d
      ensures Ticks(app, k).lyricsOffset.Some?
    {
      GlideApproaches(app, k);
    }
  }

  // ---------------------------------------------------------------------
  // Track and lyrics updates

  /** The loop's state beyond the widget state: the identity of the last
      track and the last artwork URL fetched. */
  datatype Loop = Loop(app: App, lastTrackId: string, lastArtworkUrl: Option<string>)

  /** The start of the loop. */
  function Start(app: App): Loop
  {
    Loop(app, "", None)
  }

  /** A track's identity: its name followed directly by its artist. */
  function TrackId(t: Player.TrackInfo): string
  {
    t.name + t.artist
  }

  /** Two different name/artist pairs can share an identity, because no
      separator is put between them. */
  lemma TrackIdCollision(t1: Player.TrackInfo, t2: Player.TrackInfo)
    requires t1.name == "ab" && t1.artist == "c" && t2.name == "a" && t2.artist == "bc"
    ensures TrackId(t1) == TrackId(t2)
  {
  }

  /** The downloads an update starts. */
  datatype Request = FetchLyrics(artist: string, name: string, durationMs: nat)
                   | FetchItunesArtwork(artist: string, album: string)
                   | FetchImage(url: string)

  /** The artwork part of a track update: a new URL is fetched once. */
  function ArtworkByUrl(s: Loop, t: Player.TrackInfo): (Loop, seq<Request>)
  {
    if t.artworkUrl != s.lastArtworkUrl && t.artworkUrl.Some? then
      (s.(app := s.app.(artwork := Loading), lastArtworkUrl := t.artworkUrl), [FetchImage(t.artworkUrl.value)])
    else (s, [])
  }

  /** `TrackUpdate`: the reported track replaces the old one. A new identity
      drops the lyrics and the scroll state and asks for new lyrics (and,
      for Music without artwork URL, for an iTunes artwork search); no track
      at all resets the remembered identity and URL and the artwork. */
  function TrackUpdate(s: Loop, info: Option<Player.TrackInfo>): (r: (Loop, seq<Request>))
    ensures r.0.app.track == info
    ensures info.None? ==>
              r.0 == Loop(s.app.(track := None, artwork := Idle), "", None) && r.1 == []
    ensures info.Some? && TrackId(info.value) != s.lastTrackId ==>
              r.0.app.lyrics.None? && r.0.app.lyricsOffset.None? && r.0.app.lastScrollTime.None?
              && r.0.lastTrackId == TrackId(info.value)
              && FetchLyrics(info.value.artist, info.value.name, info.value.durationMs) in r.1
    ensures info.Some? && TrackId(info.value) == s.lastTrackId ==>
              r.0.app.lyrics == s.app.lyrics && r.0.app.lyricsOffset == s.app.lyricsOffset
              && r.0.app.lastScrollTime == s.app.lastScrollTime && r.0.lastTrackId == s.lastTrackId
              && forall k | 0 <= k < |r.1| :: r.1[k].FetchImage?
    ensures r.0.app == s.app.(track := info, lyrics := r.0.app.lyrics, lyricsOffset := r.0.app.lyricsOffset,
                              lastScrollTime := r.0.app.lastScrollTime, artwork := r.0.app.artwork)
  {
    match info
    case None => (Loop(s.app.(track := None, artwork := Idle), "", None), [])
    case Some(t) =>
      var r1 := IdentityCheck(s.(app := s.app.(track := info)), t);
      var r2 := ArtworkByUrl(r1.0, t);
      (r2.0, r1.1 + r2.1)
  }

  /** The identity part of a track update, on a state that already holds
      the new track. */
  function IdentityCheck(s: Loop, t: Player.TrackInfo): (Loop, seq<Request>)
  {
    var id := TrackId(t);
    if id == s.lastTrackId then (s, [])
    else
      var cleared := s.app.(lyrics := None, lyricsOffset := None, lastScrollTime := None);
      if t.source == "Music" && t.artworkUrl.None? then
        (Loop(cleared.(artwork := Loading), id, s.lastArtworkUrl),
         [FetchLyrics(t.artist, t.name, t.durationMs), FetchItunesArtwork(t.artist, t.album)])
      else
        (Loop(cleared, id, s.lastArtworkUrl), [FetchLyrics(t.artist, t.name, t.durationMs)])
  }

  /** Switching to another track with the same identity keeps the old
      lyrics and scroll state and asks for no lyrics. */
  lemma CollidingTrackKeepsLyrics(s: Loop, t: Player.TrackInfo)
    requires s.lastTrackId == "abc" && t.name == "a" && t.artist == "bc"
    ensures TrackUpdate(s, Some(t)).0.app.lyrics == s.app.lyrics
    ensures TrackUpdate(s, Some(t)).0.app.lyricsOffset == s.app.lyricsOffset
  {
  }

  /** `LyricsUpdate`: the lyrics are installed as they come, whatever the
      current track and scroll state. */
  function LyricsUpdate(app: App, lyrics: Option<seq<LyricLine>>): (a: App)
    ensures a.lyrics == lyrics
    ensures a == app.(lyrics := a.lyrics)
  {
    app.(lyrics := lyrics)
  }

  /** So the offset can point past the last line of the new lyrics; the
      panel then clamps its window to the last line. */
  lemma StaleOffsetAfterLyricsUpdate(app: App, lyrics: seq<LyricLine>)
    requires app.lyricsOffset == Some(5) && |lyrics| == 2
    ensures var a := LyricsUpdate(app, Some(lyrics));
            a.lyricsOffset.value > LastLine(a)
    ensures ViewWindow(2, 10, Some(5), 0) == Window(1, 2)
  {
  }

  // ---------------------------------------------------------------------
  // Clicks

  /** What a left click or a key asks for: a seek to a lyric line, whatever
      `handle_click` decides, or a player command bound to a key. */
  datatype Command = SeekToLine(timestampMs: nat) | Click(action: Action) | Press(action: Action)

  /** A left click: the first lyric hitbox containing the cell wins, moves
      the track to that line's time and ends manual scrolling (the timer is
      left alone); otherwise the click goes to the player controls. */
  function LeftClick(app: App, x: nat, y: nat): (r: (App, Command))
    ensures match FirstContaining(Areas(app.hitboxes), x, y)
            case Some(k) =>
              r.1 == SeekToLine(app.hitboxes[k].timestampMs)
              && r.0.lyricsOffset.None? && r.0.lastScrollTime == app.lastScrollTime
              && (app.track.Some? <==> r.0.track.Some?)
              && (app.track.Some? ==> r.0.track.value == app.track.value.(positionMs := app.hitboxes[k].timestampMs))
              && r.0 == app.(track := r.0.track, lyricsOffset := None)
            case None => r == (app, Click(HandleClick(app, x, y)))
  {
    match FirstContaining(Areas(app.hitboxes), x, y)
    case Some(k) =>
      var ts := app.hitboxes[k].timestampMs;
      var track := match app.track
        case Some(t) => Some(t.(positionMs := ts))
        case None => None;
      (app.(track := track, lyricsOffset := None), SeekToLine(ts))
    case None => (app, Click(HandleClick(app, x, y)))
  }

  // ---------------------------------------------------------------------
  // Keys

  /** The key arm: `q` stops the loop; space, `n` and `p` drive playback;
      `+`/`=` and `-`/`_` change the volume; other keys do nothing. */
  function KeyPress(app: App, key: char): (r: (App, seq<Command>))
    ensures r.0 == app.(isRunning := r.0.isRunning)
    ensures key == 'q' ==> !r.0.isRunning && r.1 == []
    ensures key != 'q' ==> r.0 == app
    ensures r.1 == [Press(PlayPause)] <==> key == ' '
    ensures r.1 == [Press(Next)] <==> key == 'n'
    ensures r.1 == [Press(Prev)] <==> key == 'p'
    ensures r.1 == [Press(VolumeUp)] <==> key == '+' || key == '='
    ensures r.1 == [Press(VolumeDown)] <==> key == '-' || key == '_'
    ensures r.1 == [] <==> key !in "npq+=-_ " || key == 'q'
  {
    if key == 'q' then (app.(isRunning := false), [])
    else if key == ' ' then (app, [Press(PlayPause)])
    else if key == 'n' then (app, [Press(Next)])
    else if key == 'p' then (app, [Press(Prev)])
    else if key == '+' || key == '=' then (app, [Press(VolumeUp)])
    else if key == '-' || key == '_' then (app, [Press(VolumeDown)])
    else (app, [])
  }

  // ---------------------------------------------------------------------
  // The loop

  /** The events the loop handles. */
  datatype Event =
    | LeftDown(x: nat, y: nat)
    | WheelDown
    | WheelUp
    | TrackChanged(info: Option<Player.TrackInfo>)
    | LyricsArrived(lyrics: Option<seq<LyricLine>>)
    | ArtworkArrived(artwork: ArtworkState)
    | ThemeChanged(theme: Theme.Theme)
    | TickEvent
    | KeyPressed(key: char)

  /** What one event does to the loop state, and what it asks of the
      player or the network. */
  datatype Output = Output(loop: Loop, commands: seq<Command>, requests: seq<Request>)

  /** What one event does, with `now` the clock reading at which it is
      handled: only a click or a key asks something of the player, only a
      track update asks for downloads, only a key stops the widget, only a
      track update touches the remembered identity, and a scroll stamps the
      hold timer with the event's own time. */
  function Step(s: Loop, e: Event, now: nat): (o: Output)
    ensures !e.KeyPressed? ==> o.loop.app.isRunning == s.app.isRunning
    ensures !e.LeftDown? && !e.KeyPressed? ==> o.commands == []
    ensures e.LeftDown? ==> |o.commands| == 1
    ensures !e.TrackChanged? ==> o.requests == [] && o.loop == s.(app := o.loop.app)
    ensures (e.WheelDown? || e.WheelUp?) && CanScroll(s.app) ==> o.loop.app.lastScrollTime == Some(now)
  {
    match e
    case LeftDown(x, y) =>
      var (a, c) := LeftClick(s.app, x, y);
      Output(s.(app := a), [c], [])
    case WheelDown => Output(s.(app := ScrollDown(s.app, now)), [], [])
    case WheelUp => Output(s.(app := ScrollUp(s.app, now)), [], [])
    case TrackChanged(info) =>
      var (s1, reqs) := TrackUpdate(s, info);
      Output(s1, [], reqs)
    case LyricsArrived(lyrics) => Output(s.(app := LyricsUpdate(s.app, lyrics)), [], [])
    case ArtworkArrived(art) => Output(s.(app := s.app.(artwork := art)), [], [])
    case ThemeChanged(theme) => Output(s.(app := s.app.(theme := theme)), [], [])
    case TickEvent => Output(s.(app := Tick(s.app)), [], [])
    case KeyPressed(key) =>
      var (a, c) := KeyPress(s.app, key);
      Output(s.(app := a), c, [])
  }

  /** One pass of the loop: the hold check against the clock reading `now`
      taken at the top of the pass, a frame, then the event, handled at the
      later reading `at` taken once it has arrived. Drawing changes neither
      the running flag, the lyrics nor the track, so the pass stops the
      widget only on a key, and a scroll stamps the hold timer with `at`. */
  function Iteration(s: Loop, now: nat, at: nat, frame: Ui.FrameLayout, e: Event): (o: Output)
    ensures !e.KeyPressed? ==> o.loop.app.isRunning == s.app.isRunning
    ensures !e.LeftDown? && !e.KeyPressed? ==> o.commands == []
    ensures !e.TrackChanged? ==> o.requests == []
    ensures (e.WheelDown? || e.WheelUp?) && CanScroll(s.app) ==> o.loop.app.lastScrollTime == Some(at)
  {
    var drawn := Ui.DrawFrame(Expire(s.app, now), frame);
    Step(s.(app := drawn), e, at)
  }

  /** One pass as the loop receives it: the clock reading at the top of the
      pass, the reading once the event has arrived (no earlier in the
      program), the layout of the frame drawn, and the event. */
  datatype Input = Input(now: nat, at: nat, frame: Ui.FrameLayout, event: Event)

  /** One pass of the loop on one input. */
  function Pass(s: Loop, input: Input): Output
  {
    Iteration(s, input.now, input.at, input.frame, input.event)
  }

  /** The loop over a sequence of inputs, for a given pass: each pass runs
      in full, and the loop ends after the first pass that leaves
      `isRunning` false. The commands and requests of all passes run are
      collected in order. */
  function RunWith(pass: (Loop, Input) -> Output, s: Loop, inputs: seq<Input>): Output
    decreases |inputs|
  {
    if |inputs| == 0 then Output(s, [], [])
    else
      var o := pass(s, inputs[0]);
      if !o.loop.app.isRunning then o
      else
        var rest := RunWith(pass, o.loop, inputs[1..]);
        Output(rest.loop, o.commands + rest.commands, o.requests + rest.requests)
  }

  /** The widget's main loop. */
  function Run(s: Loop, inputs: seq<Input>): Output
  {
    RunWith(Pass, s, inputs)
  }

  /** Whatever the pass, the loop asks nothing of the player when no pass
      does, asks for no download when no pass does, and keeps a running
      widget running when no pass stops it. */
  lemma {:induction false} RunWithQuiet(pass: (Loop, Input) -> Output, s: Loop, inputs: seq<Input>)
    ensures (forall l: Loop, k | 0 <= k < |inputs| :: pass(l, inputs[k]).commands == [])
            ==> RunWith(pass, s, inputs).commands == []
    ensures (forall l: Loop, k | 0 <= k < |inputs| :: pass(l, inputs[k]).requests == [])
            ==> RunWith(pass, s, inputs).requests == []
    ensures s.app.isRunning
            && (forall l: Loop, k | 0 <= k < |inputs| :: l.app.isRunning ==> pass(l, inputs[k]).loop.app.isRunning)
            ==> RunWith(pass, s, inputs).loop.app.isRunning
    decreases |inputs|
  {
    if |inputs| > 0 {
      var o := pass(s, inputs[0]);
      assert forall k | 0 <= k < |inputs[1..]| :: inputs[1..][k] == inputs[k + 1];
      RunWithQuiet(pass, o.loop, inputs[1..]);
    }
  }

  /** In the main loop only clicks and keys ask something of the player,
      only track updates ask for downloads, and only a key stops the
      widget. */
  lemma RunOnlyKeysStop(s: Loop, inputs: seq<Input>)
    ensures (forall k | 0 <= k < |inputs| :: !inputs[k].event.LeftDown? && !inputs[k].event.KeyPressed?)
            ==> Run(s, inputs).commands == []
    ensures (forall k | 0 <= k < |inputs| :: !inputs[k].event.TrackChanged?) ==> Run(s, inputs).requests == []
    ensures s.app.isRunning && (forall k | 0 <= k < |inputs| :: !inputs[k].event.KeyPressed?)
            ==> Run(s, inputs).loop.app.isRunning
  {
    RunWithQuiet(Pass, s, inputs);
  }

  /** `q` ends the loop: the pass that reads it stops the widget, asks
      nothing of the player, and no later input is looked at. */
  lemma QuitStopsLoop(s: Loop, now: nat, at: nat, frame: Ui.FrameLayout, rest: seq<Input>)
    ensures var o := Run(s, [Input(now, at, frame, KeyPressed('q'))] + rest);
            !o.loop.app.isRunning && o.commands == [] && o.requests == []
            && o == Iteration(s, now, at, frame, KeyPressed('q'))
  {
    var inputs := [Input(now, at, frame, KeyPressed('q'))] + rest;
    assert inputs[0] == Input(now, at, frame, KeyPressed('q'));
  }

  /** While no pass stops the widget, running two stretches of input one
      after the other is running them together. */
  lemma {:induction false} RunAppend(pass: (Loop, Input) -> Output, s: Loop, a: seq<Input>, b: seq<Input>)
    requires RunWith(pass, s, a).loop.app.isRunning
    ensures var m := RunWith(pass, s, a).loop;
            RunWith(pass, s, a + b)
            == Output(RunWith(pass, m, b).loop,
                      RunWith(pass, s, a).commands + RunWith(pass, m, b).commands,
                      RunWith(pass, s, a).requests + RunWith(pass, m, b).requests)
    decreases |a|
  {
    if |a| == 0 {
      assert a + b == b;
    } else {
      var o := pass(s, a[0]);
      assert (a + b)[0] == a[0];
      assert (a + b)[1..] == a[1..] + b;
      RunAppend(pass, o.loop, a[1..], b);
    }
  }

  /** A frame without a lyrics panel keeps the previous frame's hitboxes, so
      a click where a lyric line used to be still seeks to that line. */
  lemma HiddenPanelStillSeeks(s: Loop, now: nat, at: nat, frame: Ui.FrameLayout, x: nat, y: nat)
    requires Ui.LyricsPanel(s.app.showLyrics, s.app.isTmux, frame.width, frame.height).None?
    requires |s.app.hitboxes| > 0 && Contains(s.app.hitboxes[0].area, x, y)
    ensures Iteration(s, now, at, frame, LeftDown(x, y)).commands == [SeekToLine(s.app.hitboxes[0].timestampMs)]
  {
    var drawn := Ui.DrawFrame(Expire(s.app, now), frame);
    assert drawn.hitboxes == s.app.hitboxes;
    assert Areas(drawn.hitboxes)[0] == s.app.hitboxes[0].area;
  }

  /** A loop pass with a left click draws the frame, from the state whose
      hold timer has been checked, and then handles the click on what the
      frame left. */
  lemma IterationClick(s: Loop, now: nat, at: nat, frame: Ui.FrameLayout, x: nat, y: nat)
    ensures var (a, c) := LeftClick(Ui.DrawFrame(Expire(s.app, now), frame), x, y);
            Iteration(s, now, at, frame, LeftDown(x, y)) == Output(s.(app := a), [c], [])
  {
  }

  /** A click inside the lyrics panel a frame drew, on row `k` of its
      inside, hits first the `k`-th target the frame left, which carries the
      timestamp of the `k`-th line of the shown window; by `LeftClick` the
      click seeks there and ends manual scrolling. A row under the last
      shown line hits no target, and the click goes to the player controls.
      (Away from the `u16` edge of the screen.) */
  lemma PanelClickSeeksLine(app: App, frame: Ui.FrameLayout, x: nat, y: nat)
    requires Ui.LyricsPanel(app.showLyrics, app.isTmux, frame.width, frame.height).Some?
    requires app.lyrics.Some?
    requires var inner := frame.lyricsInner;
             inner.x + inner.width <= U16_MAX && inner.y + inner.height <= U16_MAX
             && inner.x <= x < inner.x + inner.width && inner.y <= y
    ensures var lyrics := app.lyrics.value;
            var w := ViewWindow(|lyrics|, frame.lyricsInner.height, app.lyricsOffset,
                                NaturalIndex(lyrics, Ui.PanelPosition(app)));
            var drawn := Ui.DrawFrame(app, frame);
            var k := y - frame.lyricsInner.y;
            (k < w.end - w.start ==>
               k < |drawn.hitboxes|
               && FirstContaining(Areas(drawn.hitboxes), x, y) == Some(k)
               && drawn.hitboxes[k].timestampMs == lyrics[w.start + k].timestampMs)
            && (k >= w.end - w.start ==> FirstContaining(Areas(drawn.hitboxes), x, y).None?)
  {
    var drawn := Ui.DrawFrame(app, frame);
    var hb := Render(frame.lyricsInner, app.lyrics.value, app.lyricsOffset, Ui.PanelPosition(app)).hitboxes;
    assert drawn.hitboxes == hb;
    ClickOnPanel(hb, frame.lyricsInner, app.lyrics.value, app.lyricsOffset, Ui.PanelPosition(app), x, y);
  }

  lemma ClickOnPanel(hitboxes: seq<Hitbox>, inner: Rect, lyrics: seq<LyricLine>, offset: Option<nat>,
                     pos: nat, x: nat, y: nat)
    requires hitboxes == Render(inner, lyrics, offset, pos).hitboxes
    requires inner.x + inner.width <= U16_MAX && inner.y + inner.height <= U16_MAX
    requires inner.x <= x < inner.x + inner.width && inner.y <= y
    ensures var w := ViewWindow(|lyrics|, inner.height, offset, NaturalIndex(lyrics, pos));
            var k := y - inner.y;
            (k < w.end - w.start ==>
               k < |hitboxes| && w.start + k < |lyrics|
               && FirstContaining(Areas(hitboxes), x, y) == Some(k)
               && hitboxes[k].timestampMs == lyrics[w.start + k].timestampMs)
            && (k >= w.end - w.start ==> FirstContaining(Areas(hitboxes), x, y).None?)
  {
    ClickRowHitsLine(inner, lyrics, offset, pos, x, y);
  }
}

=== FILE: geometry.dfy ===
/** Terminal rectangles as the widget uses them (`ratatui::layout::Rect`):
    an origin and a size in cells. `contains` tests a cell against the
    rectangle, whose right and bottom edges are computed with a `u16`
    saturating add, so a rectangle reaching past column 65535 ends there. */
module Geometry {
  import opened Base

  datatype Rect = Rect(x: nat, y: nat, width: nat, height: nat)

  /** `Rect::default()`: the zero-size rectangle at the origin. */
  const Zero: Rect := Rect(0, 0, 0, 0)

  /** `x.saturating_add(width)` in `u16`. */
  function Right(r: Rect): nat
  {
    Min(r.x + r.width, U16_MAX)
  }

  /** `y.saturating_add(height)` in `u16`. */
  function Bottom(r: Rect): nat
  {
    Min(r.y + r.height, U16_MAX)
  }

  /** `Rect::contains`: the cell lies in `[x, right) × [y, bottom)`. */
  function Contains(r: Rect, px: nat, py: nat): (b: bool)
    ensures b <==> r.x <= px < r.x + r.width && r.y <= py < r.y + r.height
                   && px < U16_MAX && py < U16_MAX
  {
    r.x <= px < Right(r) && r.y <= py < Bottom(r)
  }

  /** A contained cell is less than `width` columns right of the origin and
      less than `height` rows below it; away from the `u16` edge the converse
      holds too. */
  lemma ContainsOffsets(r: Rect, px: nat, py: nat)
    ensures Contains(r, px, py) ==> px - r.x < r.width && py - r.y < r.height
    ensures r.x + r.width <= U16_MAX && r.y + r.height <= U16_MAX ==>
              (Contains(r, px, py) <==>
                 r.x <= px && px - r.x < r.width && r.y <= py && py - r.y < r.height)
  {
  }

  /** A rectangle with no width or no height contains no cell, so neither
      does `Rect::default()`. */
  lemma EmptyContainsNothing(r: Rect, px: nat, py: nat)
    requires r.width == 0 || r.height == 0
    ensures !Contains(r, px, py)
  {
  }

  /** The index of the first rectangle containing the cell, as a `for` loop
      with `break` finds it. */
  function FirstContaining(rects: seq<Rect>, px: nat, py: nat): (r: Option<nat>)
    ensures r.Some? ==> r.value < |rects| && Contains(rects[r.value], px, py)
    ensures r.Some? ==> forall j | 0 <= j < r.value :: !Contains(rects[j], px, py)
    ensures r.None? <==> forall j | 0 <= j < |rects| :: !Contains(rects[j], px, py)
    decreases |rects|
  {
    if |rects| == 0 then None
    else if Contains(rects[0], px, py) then Some(0)
    else
      match FirstContaining(rects[1..], px, py)
      case None => None
      case Some(i) => Some(i + 1)
  }
}

=== FILE: halfblock.dfy ===
/** Half-block artwork (`src/ui.rs`): an already resized RGBA image is
    drawn with one `▀` cell per pair of pixel rows, the upper pixel as the
    foreground colour and the lower one as the background, centred
    vertically by blank lines. The resize itself is the image library's and
    is outside the model: the resized image is an input. */
module HalfBlock {
  import opened Base
  import opened Theme

  datatype Pixel = Pixel(r: Byte, g: Byte, b: Byte, a: Byte)

  /** An image as rows of pixels: `img[y][x]` is `get_pixel(x, y)`. */
  type Image = seq<seq<Pixel>>

  /** Every row of `img` is `width` pixels wide. */
  predicate IsImage(img: Image, width: nat)
  {
    forall y | 0 <= y < |img| :: |img[y]| == width
  }

  /** The colour a pixel paints: its alpha channel is dropped. */
  function ColorOf(p: Pixel): Color
  {
    Rgb(p.r, p.g, p.b)
  }

  /** One `▀` cell. */
  datatype Cell = Cell(fg: Color, bg: Color)

  /** A line of the artwork paragraph: a padding line or a row of cells. */
  datatype Line = Blank | Cells(cells: seq<Cell>)

  /** The cells of one text row, from the pixel row drawn in the upper half
      and the one drawn in the lower half. */
  function PairRow(top: seq<Pixel>, bottom: seq<Pixel>): (row: seq<Cell>)
    requires |top| == |bottom|
    ensures |row| == |top|
    decreases |top|
  {
    if |top| == 0 then []
    else [Cell(ColorOf(top[0]), ColorOf(bottom[0]))] + PairRow(top[1..], bottom[1..])
  }

  /** The loop over `y` in steps of two: a last row without a partner is
      paired with itself. */
  function Fold(img: Image, width: nat): (rows: seq<seq<Cell>>)
    requires IsImage(img, width)
    ensures |rows| == (|img| + 1) / 2
    ensures forall r | 0 <= r < |rows| :: |rows[r]| == width
    decreases |img|
  {
    if |img| == 0 then []
    else if |img| == 1 then [PairRow(img[0], img[0])]
    else [PairRow(img[0], img[1])] + Fold(img[2..], width)
  }

  /** Cell `x` of a row shows pixel `x` of each half. */
  lemma {:induction false} PairRowCell(top: seq<Pixel>, bottom: seq<Pixel>, x: nat)
    requires |top| == |bottom| && x < |top|
    ensures PairRow(top, bottom)[x] == Cell(ColorOf(top[x]), ColorOf(bottom[x]))
    decreases |top|
  {
    if x > 0 {
      PairRowCell(top[1..], bottom[1..], x - 1);
    }
  }

  /** Text row `r`, column `x`: the foreground is pixel `(x, 2r)` and the
      background pixel `(x, 2r+1)`, or `(x, 2r)` again when that is the last
      row of an odd-height image. */
  lemma {:induction false} FoldCell(img: Image, width: nat, r: nat, x: nat)
    requires IsImage(img, width)
    requires r < (|img| + 1) / 2 && x < width
    ensures 2 * r < |img|
    ensures Fold(img, width)[r][x]
            == Cell(ColorOf(img[2 * r][x]),
                    ColorOf(img[if 2 * r + 1 < |img| then 2 * r + 1 else 2 * r][x]))
    decreases |img|
  {
    if |img| == 1 {
      PairRowCell(img[0], img[0], x);
    } else if r == 0 {
      PairRowCell(img[0], img[1], x);
    } else {
      var rest := img[2..];
      FoldCell(rest, width, r - 1, x);
      assert rest[2 * (r - 1)] == img[2 * r];
      if 2 * r + 1 < |img| {
        assert rest[2 * (r - 1) + 1] == img[2 * r + 1];
      }
    }
  }

  // ---------------------------------------------------------------------
  // Reading the colours back

  /** The colours of a pixel row. */
  function Colors(row: seq<Pixel>): seq<Color>
    decreases |row|
  {
    if |row| == 0 then [] else [ColorOf(row[0])] + Colors(row[1..])
  }

  /** The colours of an image, row by row. */
  function ColorRows(img: Image): seq<seq<Color>>
    decreases |img|
  {
    if |img| == 0 then [] else [Colors(img[0])] + ColorRows(img[1..])
  }

  function Foregrounds(cells: seq<Cell>): seq<Color>
    decreases |cells|
  {
    if |cells| == 0 then [] else [cells[0].fg] + Foregrounds(cells[1..])
  }

  function Backgrounds(cells: seq<Cell>): seq<Color>
    decreases |cells|
  {
    if |cells| == 0 then [] else [cells[0].bg] + Backgrounds(cells[1..])
  }

  /** What a terminal shows of the cell rows: each one as its upper and its
      lower half. */
  function Unfold(rows: seq<seq<Cell>>): seq<seq<Color>>
    decreases |rows|
  {
    if |rows| == 0 then [] else [Foregrounds(rows[0]), Backgrounds(rows[0])] + Unfold(rows[1..])
  }

  lemma {:induction false} PairRowHalves(top: seq<Pixel>, bottom: seq<Pixel>)
    requires |top| == |bottom|
    ensures Foregrounds(PairRow(top, bottom)) == Colors(top)
    ensures Backgrounds(PairRow(top, bottom)) == Colors(bottom)
    decreases |top|
  {
    if |top| > 0 {
      PairRowHalves(top[1..], bottom[1..]);
    }
  }

  /** Folding loses only the alpha channel: the halves of the cells are the
      colours of the image, with the last row shown twice when the height is
      odd. */
  lemma {:induction false} UnfoldFold(img: Image, width: nat)
    requires IsImage(img, width)
    ensures |img| % 2 == 0 ==> Unfold(Fold(img, width)) == ColorRows(img)
    ensures |img| % 2 == 1 ==>
              Unfold(Fold(img, width)) == ColorRows(img) + [Colors(img[|img| - 1])]
    decreases |img|
  {
    if |img| == 1 {
      PairRowHalves(img[0], img[0]);
      assert ColorRows(img) == [Colors(img[0])];
    } else if |img| >= 2 {
      var rest := img[2..];
      UnfoldFoldStep(img, width);
      ColorRowsStep(img);
      UnfoldFold(rest, width);
      if |img| % 2 == 1 {
        assert rest[|rest| - 1] == img[|img| - 1];
      }
    }
  }

  lemma UnfoldFoldStep(img: Image, width: nat)
    requires IsImage(img, width) && |img| >= 2
    ensures Unfold(Fold(img, width)) == [Colors(img[0]), Colors(img[1])] + Unfold(Fold(img[2..], width))
  {
    PairRowHalves(img[0], img[1]);
  }

  lemma ColorRowsStep(img: Image)
    requires |img| >= 2
    ensures ColorRows(img) == [Colors(img[0]), Colors(img[1])] + ColorRows(img[2..])
  {
    assert img[1..][0] == img[1];
    assert img[1..][1..] == img[2..];
  }

  // ---------------------------------------------------------------------
  // Placement

  /** `total_rows.saturating_sub(img_rows) / 2`, with `img_rows` the
      rounded-up half of the image height. */
  function PaddingTop(availHeight: nat, imgHeight: nat): (p: nat)
    ensures 2 * p <= SatSub(availHeight, (imgHeight + 1) / 2) <= 2 * p + 1
  {
    SatSub(availHeight, (imgHeight + 1) / 2) / 2
  }

  /** An image that fits the target height (at most two pixel rows per text
      row) fits below its padding, and the space left under it is the
      padding or one more row: the artwork is centred. */
  lemma PaddingCentres(availHeight: nat, imgHeight: nat)
    requires imgHeight <= 2 * availHeight
    ensures PaddingTop(availHeight, imgHeight) + (imgHeight + 1) / 2 <= availHeight
    ensures var below := availHeight - PaddingTop(availHeight, imgHeight) - (imgHeight + 1) / 2;
            below == PaddingTop(availHeight, imgHeight) || below == PaddingTop(availHeight, imgHeight) + 1
  {
  }

  function Blanks(n: nat): (r: seq<Line>)
    ensures |r| == n && forall k | 0 <= k < n :: r[k] == Blank
  {
    seq(n, _ => Blank)
  }

  function AsLines(rows: seq<seq<Cell>>): (r: seq<Line>)
    ensures |r| == |rows| && forall k | 0 <= k < |rows| :: r[k] == Cells(rows[k])
  {
    seq(|rows|, k requires 0 <= k < |rows| => Cells(rows[k]))
  }

  /** The artwork paragraph for an area of `availWidth × availHeight` cells,
      given the image the library resized to fit `availWidth × 2·availHeight`
      pixels; nothing is drawn when either target size is zero. */
  function Render(availWidth: nat, availHeight: nat, img: Image, width: nat): (r: Option<seq<Line>>)
    requires IsImage(img, width)
    requires availWidth > 0 && availHeight > 0 ==> width <= availWidth && |img| <= 2 * availHeight
    ensures r.None? <==> availWidth == 0 || availHeight == 0
    ensures r.Some? ==> |r.value| <= availHeight
    ensures r.Some? ==>
              var pad := PaddingTop(availHeight, |img|);
              |r.value| == pad + (|img| + 1) / 2
              && (forall k | 0 <= k < pad :: r.value[k] == Blank)
              && (forall k | pad <= k < |r.value| :: r.value[k].Cells? && |r.value[k].cells| == width)
  ensures r.Some? ==> r.value[PaddingTop(availHeight, |img|)..] == AsLines(Fold(img, width))
  {
    if availWidth > 0 && 2 * availHeight > 0 then
      PaddingCentres(availHeight, |img|);
      Some(Blanks(PaddingTop(availHeight, |img|)) + AsLines(Fold(img, width)))
    else None
  }

  /** The cell rows of the lines under the padding. */
  function DrawnRows(lines: seq<Line>): (rows: seq<seq<Cell>>)
    requires forall k | 0 <= k < |lines| :: lines[k].Cells?
    ensures |rows| == |lines| && forall k | 0 <= k < |lines| :: Cells(rows[k]) == lines[k]
  {
    seq(|lines|, k requires 0 <= k < |lines| => lines[k].cells)
  }

  /** What the paragraph shows under its padding is the image: read back
      half by half, the drawn rows are the colours of the image, with the
      last pixel row repeated when the height is odd. */
  lemma RenderShowsImage(availWidth: nat, availHeight: nat, img: Image, width: nat)
    requires IsImage(img, width)
    requires availWidth > 0 && availHeight > 0 && width <= availWidth && |img| <= 2 * availHeight
    ensures var r := Render(availWidth, availHeight, img, width);
            var drawn := r.value[PaddingTop(availHeight, |img|)..];
            r.Some?
            && (forall k | 0 <= k < |drawn| :: drawn[k].Cells?)
            && (|img| % 2 == 0 ==> Unfold(DrawnRows(drawn)) == ColorRows(img))
            && (|img| % 2 == 1 ==> Unfold(DrawnRows(drawn)) == ColorRows(img) + [Colors(img[|img| - 1])])
  {
    var r := Render(availWidth, availHeight, img, width);
    var drawn := r.value[PaddingTop(availHeight, |img|)..];
    assert DrawnRows(drawn) == Fold(img, width);
    UnfoldFold(img, width);
  }
}

=== FILE: lyrics.dfy ===
/** The LRC lyric parser of `src/lyrics.rs`: a `[mm:ss.xx]text` transcript
    becomes a sequence of timed lines, in transcript order. */
module Lyrics {
  import opened Base
  import opened RustStr

  /** One timed lyric line (`LyricLine`). */
  datatype LyricLine = LyricLine(timestampMs: nat, text: string)

  /** The two transcripts a lyrics lookup can return (`LrclibResponse`). */
  datatype LrclibResponse = LrclibResponse(syncedLyrics: Option<string>, plainLyrics: Option<string>)

  // ---------------------------------------------------------------------
  // Timestamps

  /** The fraction rule: a two-character fraction counts centiseconds,
      anything else is taken verbatim as milliseconds. */
  function FractionMs(frac: string): Option<nat>
  {
    match ParseU64(frac)
    case None => None
    case Some(v) => Some(if |frac| == 2 then v * 10 else v)
  }

  /** `parse_timestamp`: the text between `[` and `]` as milliseconds. */
  function ParseTimestamp(ts: string): (r: Option<nat>)
    ensures r.Some? ==> multiset(ts)[':'] == 1
  {
    var parts := Split(ts, ':');
    if |parts| != 2 then None else ClockFields(parts[0], Split(parts[1], '.'))
  }

  /** The minutes field and the `.`-separated pieces of the seconds field:
      `min*60000 + sec*1000 + ms`, with no bound on the seconds, and no
      fraction meaning 0 ms. */
  function ClockFields(min: string, secParts: seq<string>): Option<nat>
    requires |secParts| >= 1
  {
    match ParseU64(min)
    case None => None
    case Some(m) =>
      match ParseU64(secParts[0])
      case None => None
      case Some(sec) =>
        var ms := if |secParts| > 1 then FractionMs(secParts[1]) else Some(0);
        match ms
        case None => None
        case Some(ms) => Some(m * 60000 + sec * 1000 + ms)
  }

  /** The value of `min:sec` with `ms` milliseconds, when all three parse. */
  function ClockValue(min: string, sec: string, ms: Option<nat>): Option<nat>
  {
    match (ParseU64(min), ParseU64(sec), ms)
    case (Some(m), Some(s), Some(f)) => Some(m * 60000 + s * 1000 + f)
    case _ => None
  }

  /** A timestamp splits at its one colon and then at every dot of the
      seconds field. */
  lemma TimestampFields(ts: string, min: string, secParts: seq<string>)
    requires |secParts| >= 1 && ':' !in min
    requires forall k | 0 <= k < |secParts| :: ':' !in secParts[k] && '.' !in secParts[k]
    requires ts == min + ":" + Join(secParts, '.')
    ensures ParseTimestamp(ts) == ClockFields(min, secParts)
  {
    var tail := Join(secParts, '.');
    JoinFree(secParts, '.', ':');
    SplitJoin([min, tail], ':');
    assert Join([min, tail], ':') == min + ":" + tail;
    SplitJoin(secParts, '.');
  }

  /** The pieces after the seconds field other than the first are never
      read. */
  lemma ClockFieldsValue(min: string, secParts: seq<string>)
    requires |secParts| >= 1
    ensures ClockFields(min, secParts)
         == ClockValue(min, secParts[0], if |secParts| > 1 then FractionMs(secParts[1]) else Some(0))
  {
  }

  /** The value of `min:sec[.frac[.extra…]]`: minutes and seconds must
      parse, the fraction rule gives the milliseconds (0 with no fraction),
      and pieces after the fraction are ignored. */
  lemma TimestampOf(min: string, secParts: seq<string>)
    requires |secParts| >= 1 && ':' !in min
    requires forall k | 0 <= k < |secParts| :: ':' !in secParts[k] && '.' !in secParts[k]
    ensures ParseTimestamp(min + ":" + Join(secParts, '.'))
         == ClockValue(min, secParts[0], if |secParts| > 1 then FractionMs(secParts[1]) else Some(0))
  {
    TimestampFields(min + ":" + Join(secParts, '.'), min, secParts);
    ClockFieldsValue(min, secParts);
  }

  /** The canonical `mm:ss.xx` form: two-digit minutes, seconds and
      centiseconds; `v` is the value the digits spell. */
  lemma TimestampCanonical(m1: char, m2: char, s1: char, s2: char, f1: char, f2: char, v: nat)
    requires IsDigit(m1) && IsDigit(m2) && IsDigit(s1) && IsDigit(s2) && IsDigit(f1) && IsDigit(f2)
    requires v == (10 * DigitValue(m1) + DigitValue(m2)) * 60000
                 + (10 * DigitValue(s1) + DigitValue(s2)) * 1000
                 + (10 * DigitValue(f1) + DigitValue(f2)) * 10
    ensures ParseTimestamp([m1, m2, ':', s1, s2, '.', f1, f2]) == Some(v)
  {
    CanonicalFields(m1, m2, s1, s2, f1, f2);
    CanonicalDigits(m1, m2, s1, s2, f1, f2, v);
  }

  lemma CanonicalFields(m1: char, m2: char, s1: char, s2: char, f1: char, f2: char)
    requires IsDigit(m1) && IsDigit(m2) && IsDigit(s1) && IsDigit(s2) && IsDigit(f1) && IsDigit(f2)
    ensures ParseTimestamp([m1, m2, ':', s1, s2, '.', f1, f2])
         == ClockValue([m1, m2], [s1, s2], FractionMs([f1, f2]))
  {
    var secParts := [[s1, s2], [f1, f2]];
    assert Join(secParts, '.') == [s1, s2, '.', f1, f2];
    Example([m1, m2], secParts, [m1, m2, ':', s1, s2, '.', f1, f2]);
  }

  lemma CanonicalDigits(m1: char, m2: char, s1: char, s2: char, f1: char, f2: char, v: nat)
    requires IsDigit(m1) && IsDigit(m2) && IsDigit(s1) && IsDigit(s2) && IsDigit(f1) && IsDigit(f2)
    requires v == (10 * DigitValue(m1) + DigitValue(m2)) * 60000
                 + (10 * DigitValue(s1) + DigitValue(s2)) * 1000
                 + (10 * DigitValue(f1) + DigitValue(f2)) * 10
    ensures ClockValue([m1, m2], [s1, s2], FractionMs([f1, f2])) == Some(v)
  {
    Digits2(m1, m2);
    Digits2(s1, s2);
    Digits2(f1, f2);
  }

  /** Worked values from the transcript format: centiseconds are scaled by
      ten. */
  lemma CentisecondExamples()
    ensures ParseTimestamp("00:01.50") == Some(1500)
    ensures ParseTimestamp("00:03.00") == Some(3000)
    ensures ParseTimestamp("02:30.05") == Some(150050)
  {
    TimestampCanonical('0', '0', '0', '1', '5', '0', 1500);
    TimestampCanonical('0', '0', '0', '3', '0', '0', 3000);
    TimestampCanonical('0', '2', '3', '0', '0', '5', 150050);
  }

  /** A one-digit fraction is read as milliseconds, not tenths: `s1s2.f`
      is `f` ms past the second. */
  lemma ShortFraction(m1: char, m2: char, s1: char, s2: char, f: char, v: nat)
    requires IsDigit(m1) && IsDigit(m2) && IsDigit(s1) && IsDigit(s2) && IsDigit(f)
    requires v == (10 * DigitValue(m1) + DigitValue(m2)) * 60000
                 + (10 * DigitValue(s1) + DigitValue(s2)) * 1000
                 + DigitValue(f)
    ensures ParseTimestamp([m1, m2, ':', s1, s2, '.', f]) == Some(v)
  {
    ShortFractionFields(m1, m2, s1, s2, f);
    ShortFractionDigits(m1, m2, s1, s2, f, v);
  }

  lemma ShortFractionDigits(m1: char, m2: char, s1: char, s2: char, f: char, v: nat)
    requires IsDigit(m1) && IsDigit(m2) && IsDigit(s1) && IsDigit(s2) && IsDigit(f)
    requires v == (10 * DigitValue(m1) + DigitValue(m2)) * 60000
                 + (10 * DigitValue(s1) + DigitValue(s2)) * 1000
                 + DigitValue(f)
    ensures ClockValue([m1, m2], [s1, s2], FractionMs([f])) == Some(v)
  {
    Digits2(m1, m2);
    Digits2(s1, s2);
    Digits1(f);
  }

  lemma ShortFractionFields(m1: char, m2: char, s1: char, s2: char, f: char)
    requires IsDigit(m1) && IsDigit(m2) && IsDigit(s1) && IsDigit(s2) && IsDigit(f)
    ensures ParseTimestamp([m1, m2, ':', s1, s2, '.', f])
         == ClockValue([m1, m2], [s1, s2], FractionMs([f]))
  {
    var secParts := [[s1, s2], [f]];
    assert Join(secParts, '.') == [s1, s2, '.', f];
    Example([m1, m2], secParts, [m1, m2, ':', s1, s2, '.', f]);
  }

  /** `00:00.5` is 5 ms while `00:00.50` is 500 ms. */
  lemma ShortFractionExample()
    ensures ParseTimestamp("00:00.5") == Some(5)
    ensures ParseTimestamp("00:00.50") == Some(500)
  {
    ShortFraction('0', '0', '0', '0', '5', 5);
    TimestampCanonical('0', '0', '0', '0', '5', '0', 500);
  }

  /** A three-digit fraction is milliseconds: `00:00.500` is 500 ms. */
  lemma LongFractionExample()
    ensures ParseTimestamp("00:00.500") == Some(500)
  {
    LongFraction('0', '0', '0', '0', '5', '0', '0', 500);
  }

  lemma LongFraction(m1: char, m2: char, s1: char, s2: char, f1: char, f2: char, f3: char, v: nat)
    requires IsDigit(m1) && IsDigit(m2) && IsDigit(s1) && IsDigit(s2)
    requires IsDigit(f1) && IsDigit(f2) && IsDigit(f3)
    requires v == (10 * DigitValue(m1) + DigitValue(m2)) * 60000
                 + (10 * DigitValue(s1) + DigitValue(s2)) * 1000
                 + 100 * DigitValue(f1) + 10 * DigitValue(f2) + DigitValue(f3)
    ensures ParseTimestamp([m1, m2, ':', s1, s2, '.', f1, f2, f3]) == Some(v)
  {
    var secParts := [[s1, s2], [f1, f2, f3]];
    assert Join(secParts, '.') == [s1, s2, '.', f1, f2, f3];
    Example([m1, m2], secParts, [m1, m2, ':', s1, s2, '.', f1, f2, f3]);
    LongFractionDigits(m1, m2, s1, s2, f1, f2, f3, v);
  }

  lemma LongFractionDigits(m1: char, m2: char, s1: char, s2: char, f1: char, f2: char, f3: char, v: nat)
    requires IsDigit(m1) && IsDigit(m2) && IsDigit(s1) && IsDigit(s2)
    requires IsDigit(f1) && IsDigit(f2) && IsDigit(f3)
    requires v == (10 * DigitValue(m1) + DigitValue(m2)) * 60000
                 + (10 * DigitValue(s1) + DigitValue(s2)) * 1000
                 + 100 * DigitValue(f1) + 10 * DigitValue(f2) + DigitValue(f3)
    ensures ClockValue([m1, m2], [s1, s2], FractionMs([f1, f2, f3])) == Some(v)
  {
    Digits2(m1, m2);
    Digits2(s1, s2);
    Digits3(f1, f2, f3);
  }

  /** Without a fraction the milliseconds are 0, and the seconds are not
      bounded by 60. */
  lemma NoFraction(min: string, sec: string, ts: string)
    requires ':' !in min && ':' !in sec && '.' !in sec
    requires ts == min + ":" + sec
    ensures ParseTimestamp(ts) == ClockValue(min, sec, Some(0))
  {
    assert Join([sec], '.') == sec;
    Example(min, [sec], ts);
  }

  /** `00:75` is 75 seconds. */
  lemma UnboundedSecondsExample()
    ensures ParseTimestamp("00:75") == Some(75000)
  {
    UnboundedSeconds('0', '0', '7', '5', 75000);
  }

  lemma UnboundedSeconds(m1: char, m2: char, s1: char, s2: char, v: nat)
    requires IsDigit(m1) && IsDigit(m2) && IsDigit(s1) && IsDigit(s2)
    requires v == (10 * DigitValue(m1) + DigitValue(m2)) * 60000
                 + (10 * DigitValue(s1) + DigitValue(s2)) * 1000
    ensures ParseTimestamp([m1, m2, ':', s1, s2]) == Some(v)
  {
    NoFraction([m1, m2], [s1, s2], [m1, m2, ':', s1, s2]);
    UnboundedSecondsDigits(m1, m2, s1, s2, v);
  }

  lemma UnboundedSecondsDigits(m1: char, m2: char, s1: char, s2: char, v: nat)
    requires IsDigit(m1) && IsDigit(m2) && IsDigit(s1) && IsDigit(s2)
    requires v == (10 * DigitValue(m1) + DigitValue(m2)) * 60000
                 + (10 * DigitValue(s1) + DigitValue(s2)) * 1000
    ensures ClockValue([m1, m2], [s1, s2], Some(0)) == Some(v)
  {
    Digits2(m1, m2);
    Digits2(s1, s2);
  }

  /** Pieces after the fraction are never read: a timestamp with more
      `.`-pieces has the value of the one cut after its fraction. */
  lemma ExtraPiecesIgnored(min: string, secParts: seq<string>, ts: string, cut: string)
    requires ':' !in min && |secParts| >= 2
    requires forall k | 0 <= k < |secParts| :: ':' !in secParts[k] && '.' !in secParts[k]
    requires ts == min + ":" + Join(secParts, '.')
    requires cut == min + ":" + Join(secParts[..2], '.')
    ensures ParseTimestamp(ts) == ParseTimestamp(cut)
  {
    var first := secParts[..2];
    assert first[0] == secParts[0] && first[1] == secParts[1];
    Example(min, secParts, ts);
    Example(min, first, cut);
  }

  /** An empty minutes, seconds or fraction field rejects the timestamp. */
  lemma EmptyMinutesRejected(sec: string)
    requires ':' !in sec && '.' !in sec
    ensures ParseTimestamp(":" + sec).None?
  {
    TimestampOf([], [sec]);
    assert [] + ":" + Join([sec], '.') == ":" + sec;
  }

  lemma EmptySecondsRejected(min: string)
    requires ':' !in min
    ensures ParseTimestamp(min + ":").None?
  {
    TimestampOf(min, [[]]);
    assert min + ":" + Join([[]], '.') == min + ":";
  }

  lemma EmptyFractionRejected(min: string, sec: string)
    requires ':' !in min && ':' !in sec && '.' !in sec
    ensures ParseTimestamp(min + ":" + sec + ".").None?
  {
    var ts := min + ":" + sec + ".";
    assert Join([[]], '.') == [];
    assert Join([sec, []], '.') == sec + "." + [];
    assert ts == min + ":" + Join([sec, []], '.');
    Example(min, [sec, []], ts);
  }

  lemma Example(min: string, secParts: seq<string>, ts: string)
    requires |secParts| >= 1 && ':' !in min
    requires forall k | 0 <= k < |secParts| :: ':' !in secParts[k] && '.' !in secParts[k]
    requires ts == min + ":" + Join(secParts, '.')
    ensures ParseTimestamp(ts)
         == ClockValue(min, secParts[0], if |secParts| > 1 then FractionMs(secParts[1]) else Some(0))
  {
    TimestampOf(min, secParts);
  }

  lemma Digits1(a: char)
    requires IsDigit(a)
    ensures ParseU64([a]) == Some(DigitValue(a))
  {
    var s := [a];
    assert s[..0] == [];
    assert AllDigits(s);
    assert DecimalValue(s) == DigitValue(a);
  }

  lemma Digits2(a: char, b: char)
    requires IsDigit(a) && IsDigit(b)
    ensures ParseU64([a, b]) == Some(10 * DigitValue(a) + DigitValue(b))
  {
    var s := [a, b];
    assert s[..1] == [a];
    assert [a][..0] == [];
    assert AllDigits(s);
    assert DecimalValue([a]) == DigitValue(a);
    assert DecimalValue(s) == 10 * DigitValue(a) + DigitValue(b);
  }

  lemma Digits3(a: char, b: char, c: char)
    requires IsDigit(a) && IsDigit(b) && IsDigit(c)
    ensures ParseU64([a, b, c]) == Some(100 * DigitValue(a) + 10 * DigitValue(b) + DigitValue(c))
  {
    var s := [a, b, c];
    assert s[..2] == [a, b];
    assert [a, b][..1] == [a];
    assert [a][..0] == [];
    assert AllDigits(s);
    assert DecimalValue([a]) == DigitValue(a);
    assert DecimalValue([a, b]) == 10 * DigitValue(a) + DigitValue(b);
    assert DecimalValue(s) == 100 * DigitValue(a) + 10 * DigitValue(b) + DigitValue(c);
  }

  // ---------------------------------------------------------------------
  // Lines

  /** One transcript line: kept when it starts with `[`, contains `]`, and
      the text before the first `]` is a timestamp; the stored text is the
      trimmed rest of the line. */
  function ParseLine(line: string): (r: Option<LyricLine>)
    ensures r.Some? ==> |line| > 0 && line[0] == '[' && ']' in line
  {
    match FindChar(line, ']')
    case None => None
    case Some(idx) =>
      if |line| > 0 && line[0] == '[' then
        match ParseTimestamp(line[1..idx])
        case None => None
        case Some(ms) => Some(LyricLine(ms, Trim(line[idx + 1..])))
      else None
  }

  /** A line built as `[` timestamp `]` text parses back to the timestamp's
      value and the trimmed text. */
  lemma ParseLineOf(ts: string, text: string, line: string, v: nat)
    requires ']' !in ts && ParseTimestamp(ts) == Some(v)
    requires line == "[" + ts + "]" + text
    ensures ParseLine(line) == Some(LyricLine(v, Trim(text)))
  {
    BracketedLine(ts, text, line);
    ParseLineAt(line, |ts| + 1, v);
  }

  /** Conversely, every kept line is `[` timestamp `]` text with no `]` in
      the timestamp, and stores that timestamp's value and the trimmed
      text. */
  lemma ParseLineShape(line: string) returns (ts: string, text: string)
    requires ParseLine(line).Some?
    ensures ']' !in ts && line == "[" + ts + "]" + text
    ensures ParseTimestamp(ts) == Some(ParseLine(line).value.timestampMs)
    ensures ParseLine(line).value.text == Trim(text)
  {
    var idx := KeptLine(line);
    ts := line[1..idx];
    text := line[idx + 1..];
    SplitAtBracket(line, idx);
  }

  /** The facts `parse` checked to keep a line. */
  lemma KeptLine(line: string) returns (idx: nat)
    requires ParseLine(line).Some?
    ensures |line| > 0 && line[0] == '[' && FindChar(line, ']') == Some(idx)
    ensures 1 <= idx < |line|
    ensures ParseTimestamp(line[1..idx]) == Some(ParseLine(line).value.timestampMs)
    ensures ParseLine(line).value.text == Trim(line[idx + 1..])
  {
    idx := FindChar(line, ']').value;
  }

  /** A line starting with `[` is `[`, the text up to its first `]`, that
      `]`, and the rest. */
  lemma SplitAtBracket(line: string, idx: nat)
    requires |line| > 0 && line[0] == '[' && FindChar(line, ']') == Some(idx)
    ensures 1 <= idx < |line|
    ensures ']' !in line[1..idx]
    ensures line == "[" + line[1..idx] + "]" + line[idx + 1..]
  {
    SplitAround(line, idx);
    assert line[1..idx] == line[..idx][1..];
    assert [line[0]] == "[" && [line[idx]] == "]";
  }

  /** A sequence is its head, the part up to position `idx`, the element
      there, and the rest. */
  lemma SplitAround<T>(s: seq<T>, idx: nat)
    requires 1 <= idx < |s|
    ensures s == [s[0]] + s[1..idx] + [s[idx]] + s[idx + 1..]
  {
  }

  /** Where the pieces of a bracketed line sit. */
  lemma BracketedLine(ts: string, text: string, line: string)
    requires ']' !in ts && line == "[" + ts + "]" + text
    ensures |line| > 0 && line[0] == '['
    ensures FindChar(line, ']') == Some(|ts| + 1)
    ensures line[1..|ts| + 1] == ts && line[|ts| + 2..] == text
  {
    FindCharAt("[" + ts, ']', text);
    assert line == ("[" + ts) + "]" + text;
  }

  lemma ParseLineAt(line: string, idx: nat, v: nat)
    requires |line| > 0 && line[0] == '['
    requires FindChar(line, ']') == Some(idx)
    requires ParseTimestamp(line[1..idx]) == Some(v)
    ensures ParseLine(line) == Some(LyricLine(v, Trim(line[idx + 1..])))
  {
  }

  /** The timed lines of a transcript's lines, in order. */
  function ParseLines(ls: seq<string>): (r: seq<LyricLine>)
    ensures |r| <= |ls|
    ensures forall k | 0 <= k < |ls| :: ParseLine(ls[k]).Some? ==> ParseLine(ls[k]).value in r
  {
    FilterMap(ls, ParseLine)
  }

  /** Rejected lines drop only themselves: parsing distributes over
      concatenation, so no line affects another and order is kept. */
  lemma ParseLinesAppend(a: seq<string>, b: seq<string>)
    ensures ParseLines(a + b) == ParseLines(a) + ParseLines(b)
  {
    FilterMapAppend(a, b, ParseLine);
  }

  /** No timed line comes out exactly when every line is rejected. */
  lemma ParseLinesEmpty(ls: seq<string>)
    ensures ParseLines(ls) == [] <==> forall k | 0 <= k < |ls| :: ParseLine(ls[k]).None?
  {
    FilterMapEmpty(ls, ParseLine);
  }

  /** Each output line is the parse of some input line, and the output is no
      longer than the input. */
  lemma ParseLinesFrom(ls: seq<string>)
    ensures |ParseLines(ls)| <= |ls|
    ensures forall k | 0 <= k < |ParseLines(ls)| ::
              exists i | 0 <= i < |ls| :: ParseLine(ls[i]) == Some(ParseLines(ls)[k])
  {
    FilterMapFrom(ls, ParseLine);
  }

  /** The transcript `parse` reads: the synced one when present, otherwise
      the plain one. */
  function ChosenTranscript(data: LrclibResponse): Option<string>
  {
    if data.syncedLyrics.Some? then data.syncedLyrics else data.plainLyrics
  }

  /** The timed lines of one transcript, or `None` when there are none. */
  function ParseText(text: string): (r: Option<seq<LyricLine>>)
    ensures r.Some? ==> |r.value| > 0
  {
    var lines := ParseLines(Lines(text));
    if |lines| == 0 then None else Some(lines)
  }

  /** `parse`: `None` when neither transcript is present or the chosen one
      has no timed line. */
  function Parse(data: LrclibResponse): (r: Option<seq<LyricLine>>)
    ensures r.Some? ==> |r.value| > 0
  {
    match ChosenTranscript(data)
    case None => None
    case Some(text) => ParseText(text)
  }

  /** Synced text wins whenever it is present, even when it yields nothing;
      plain text is read only when synced text is absent. */
  lemma ParseChoosesTranscript(data: LrclibResponse)
    ensures data.syncedLyrics.Some? ==> Parse(data) == ParseText(data.syncedLyrics.value)
    ensures data.syncedLyrics.None? && data.plainLyrics.Some? ==>
              Parse(data) == ParseText(data.plainLyrics.value)
    ensures data.syncedLyrics.None? && data.plainLyrics.None? ==> Parse(data).None?
  {
  }

  /** A transcript gives `None` exactly when every one of its lines is
      rejected; otherwise all its timed lines, in order. */
  lemma {:induction false} ParseTextNone(text: string)
    ensures ParseText(text).None? <==>
              forall k | 0 <= k < |Lines(text)| :: ParseLine(Lines(text)[k]).None?
    ensures ParseText(text).Some? ==> ParseText(text).value == ParseLines(Lines(text))
  {
    TextLinesEmpty(Lines(text), ParseText(text));
  }

  lemma TextLinesEmpty(ls: seq<string>, r: Option<seq<LyricLine>>)
    requires r == if |ParseLines(ls)| == 0 then None else Some(ParseLines(ls))
    ensures r.None? <==> forall k | 0 <= k < |ls| :: ParseLine(ls[k]).None?
    ensures r.Some? ==> r.value == ParseLines(ls)
  {
    ParseLinesEmpty(ls);
  }

  /** An empty synced transcript hides any plain one. */
  lemma EmptySyncedHidesPlain(plain: string)
    ensures Parse(LrclibResponse(Some(""), Some(plain))).None?
  {
    assert Lines("") == [];
  }

  /** `position(|l| l.timestamp_ms > pos)`: the first line stamped after
      `pos`. */
  function FirstAfter(lyrics: seq<LyricLine>, pos: nat): (r: Option<nat>)
    ensures r.Some? ==> r.value < |lyrics| && lyrics[r.value].timestampMs > pos
    ensures r.Some? ==> forall j | 0 <= j < r.value :: lyrics[j].timestampMs <= pos
    ensures r.None? ==> forall j | 0 <= j < |lyrics| :: lyrics[j].timestampMs <= pos
    decreases |lyrics|
  {
    if |lyrics| == 0 then None
    else if lyrics[0].timestampMs > pos then Some(0)
    else
      match FirstAfter(lyrics[1..], pos)
      case None => None
      case Some(i) => Some(i + 1)
  }

  /** Lines in non-decreasing timestamp order. */
  predicate Sorted(lyrics: seq<LyricLine>)
  {
    forall i, j | 0 <= i <= j < |lyrics| :: lyrics[i].timestampMs <= lyrics[j].timestampMs
  }
}

=== FILE: lyrics_view.dfy ===
/** The lyrics panel of `src/ui.rs`: which line is current, which slice of
    the lyrics fits the panel, the `● ` marker, and the table of click
    targets, one per shown line, that the event loop reads back. */
module LyricsView {
  import opened Base
  import opened Geometry
  import opened Lyrics

  /** The line drawn as current: the line before the first one stamped
      after `pos`, or the last line when no line is. */
  function NaturalIndex(lyrics: seq<LyricLine>, pos: nat): (i: nat)
    ensures |lyrics| > 0 ==> i < |lyrics|
    ensures |lyrics| == 0 ==> i == 0
  {
    match FirstAfter(lyrics, pos)
    case Some(k) => SatSub(k, 1)
    case None => SatSub(|lyrics|, 1)
  }

  /** For time-ordered lyrics whose first line has started, the current line
      is the last one that has started. */
  lemma NaturalIndexIsLastStarted(lyrics: seq<LyricLine>, pos: nat)
    requires Sorted(lyrics) && |lyrics| > 0 && lyrics[0].timestampMs <= pos
    ensures lyrics[NaturalIndex(lyrics, pos)].timestampMs <= pos
    ensures forall j | NaturalIndex(lyrics, pos) < j < |lyrics| :: lyrics[j].timestampMs > pos
  {
    match FirstAfter(lyrics, pos)
    case None =>
    case Some(k) =>
      assert k > 0;
      assert forall j | k <= j < |lyrics| :: lyrics[k].timestampMs <= lyrics[j].timestampMs;
  }

  /** As the position advances the current line never moves back, whatever
      the order of the timestamps. */
  lemma NaturalIndexMonotone(lyrics: seq<LyricLine>, p1: nat, p2: nat)
    requires p1 <= p2
    ensures NaturalIndex(lyrics, p1) <= NaturalIndex(lyrics, p2)
  {
    match FirstAfter(lyrics, p2)
    case None =>
    case Some(k2) =>
      assert lyrics[k2].timestampMs > p1;
      match FirstAfter(lyrics, p1)
      case None =>
      case Some(k1) =>
        assert k1 <= k2;
  }

  /** The half-open range `[start, end)` of shown lines. */
  datatype Window = Window(start: nat, end: nat)

  /** The shown slice of `len` lines in a panel `height` rows high: from the
      scrolled-to line (clamped to the last line) while an offset is set,
      otherwise with the current line half a panel down. */
  function ViewWindow(len: nat, height: nat, offset: Option<nat>, current: nat): (w: Window)
    requires current <= SatSub(len, 1)
    ensures w.start <= w.end <= len && w.end - w.start <= height
    ensures w.end - w.start == Min(height, len - w.start)
    ensures offset.Some? ==> w.start == Min(offset.value, SatSub(len, 1))
    ensures offset.None? && height > 0 && len > 0 ==> w.start <= current < w.end
    ensures offset.None? ==> current - w.start <= height / 2
    ensures offset.None? ==> w.start == 0 || current - w.start == height / 2
    ensures offset.None? ==> (w.start == 0 <==> current <= height / 2)
  {
    var start := match offset
      case Some(off) => Min(off, SatSub(len, 1))
      case None => SatSub(current, height / 2);
    Window(start, Min(start + height, len))
  }

  /** One shown line, with the `● ` marker or without. */
  datatype Shown = Shown(text: string, marked: bool)

  /** A click target: the row of a shown line and that line's timestamp. */
  datatype Hitbox = Hitbox(area: Rect, timestampMs: nat)

  datatype View = View(lines: seq<Shown>, hitboxes: seq<Hitbox>)

  function Areas(hitboxes: seq<Hitbox>): (r: seq<Rect>)
    ensures |r| == |hitboxes| && forall k | 0 <= k < |r| :: r[k] == hitboxes[k].area
  {
    seq(|hitboxes|, k requires 0 <= k < |hitboxes| => hitboxes[k].area)
  }

  /** The lyrics paragraph and the hitboxes pushed onto the cleared table,
      for a panel whose inside is `inner` and playback position `pos`. */
  function Render(inner: Rect, lyrics: seq<LyricLine>, offset: Option<nat>, pos: nat): (v: View)
    ensures var w := ViewWindow(|lyrics|, inner.height, offset, NaturalIndex(lyrics, pos));
            |v.lines| == w.end - w.start && |v.hitboxes| == w.end - w.start
    ensures var cur := NaturalIndex(lyrics, pos);
            var w := ViewWindow(|lyrics|, inner.height, offset, cur);
            forall k | 0 <= k < |v.lines| ::
              v.lines[k] == Shown(lyrics[w.start + k].text, w.start + k == cur)
    ensures var w := ViewWindow(|lyrics|, inner.height, offset, NaturalIndex(lyrics, pos));
            forall k | 0 <= k < |v.hitboxes| ::
              v.hitboxes[k] == Hitbox(Rect(inner.x, inner.y + k, inner.width, 1),
                                      lyrics[w.start + k].timestampMs)
  {
    var cur := NaturalIndex(lyrics, pos);
    var w := ViewWindow(|lyrics|, inner.height, offset, cur);
    View(seq(w.end - w.start, k requires 0 <= k < w.end - w.start =>
               Shown(lyrics[w.start + k].text, w.start + k == cur)),
         seq(w.end - w.start, k requires 0 <= k < w.end - w.start =>
               Hitbox(Rect(inner.x, inner.y + k, inner.width, 1), lyrics[w.start + k].timestampMs)))
  }

  /** Only the current line is marked, and in auto mode it is always shown:
      a panel with room and lyrics then has exactly one marked line. */
  lemma MarkedIsCurrent(inner: Rect, lyrics: seq<LyricLine>, offset: Option<nat>, pos: nat)
    ensures var v := Render(inner, lyrics, offset, pos);
            var w := ViewWindow(|lyrics|, inner.height, offset, NaturalIndex(lyrics, pos));
            forall k | 0 <= k < |v.lines| :: v.lines[k].marked <==> w.start + k == NaturalIndex(lyrics, pos)
    ensures var v := Render(inner, lyrics, offset, pos);
            var w := ViewWindow(|lyrics|, inner.height, offset, NaturalIndex(lyrics, pos));
            offset.None? && inner.height > 0 && |lyrics| > 0 ==>
              var k := NaturalIndex(lyrics, pos) - w.start;
              k < |v.lines| && v.lines[k].marked
  {
  }

  /** In auto mode the marked line is drawn half a panel down, or on its own
      row while it is within the first half panel of the song. */
  lemma MarkedRowCentred(inner: Rect, lyrics: seq<LyricLine>, pos: nat)
    requires inner.height > 0 && |lyrics| > 0
    ensures var v := Render(inner, lyrics, None, pos);
            var row := Min(NaturalIndex(lyrics, pos), inner.height / 2);
            row < |v.lines| && v.lines[row].marked
  {
    MarkedIsCurrent(inner, lyrics, None, pos);
  }

  /** Clicking row `k` of the panel hits the `k`-th hitbox first; a row
      under the last hitbox hits nothing. (Away from the `u16` edge of the
      screen.) */
  lemma ClickRowHitsLine(inner: Rect, lyrics: seq<LyricLine>, offset: Option<nat>, pos: nat,
                         px: nat, py: nat)
    requires inner.x + inner.width <= U16_MAX && inner.y + inner.height <= U16_MAX
    requires inner.x <= px < inner.x + inner.width && inner.y <= py
    ensures var v := Render(inner, lyrics, offset, pos);
            py - inner.y < |v.hitboxes| ==> FirstContaining(Areas(v.hitboxes), px, py) == Some(py - inner.y)
    ensures var v := Render(inner, lyrics, offset, pos);
            py - inner.y >= |v.hitboxes| ==> FirstContaining(Areas(v.hitboxes), px, py).None?
  {
    var v := Render(inner, lyrics, offset, pos);
    StackedRowsHit(Areas(v.hitboxes), inner.x, inner.y, inner.width, px, py);
  }

  /** In a stack of one-row rectangles from row `y` down, a cell inside
      their columns lies in the rectangle of its own row and no other. */
  lemma StackedRowsHit(areas: seq<Rect>, x: nat, y: nat, width: nat, px: nat, py: nat)
    requires forall j | 0 <= j < |areas| :: areas[j] == Rect(x, y + j, width, 1)
    requires x + width <= U16_MAX && y + |areas| <= U16_MAX
    requires x <= px < x + width && y <= py
    ensures py - y < |areas| ==> FirstContaining(areas, px, py) == Some(py - y)
    ensures py - y >= |areas| ==> FirstContaining(areas, px, py).None?
  {
    assert forall j | 0 <= j < |areas| :: Contains(areas[j], px, py) <==> j == py - y;
    if py - y < |areas| {
      assert Contains(areas[py - y], px, py);
    }
  }
}

=== FILE: player.dfy ===
/** The player bridge of `src/player.rs`: which music app is asked, and how
    the `|||`-delimited record printed by its script becomes a `TrackInfo`.
    Running `pgrep` and `osascript` is outside the model: whether each app is
    running and what the script printed are inputs. The two numeric fields go
    through floating-point parsing in the source; here their conversions are
    parameters. */
module Player {
  import opened Base
  import opened RustStr

  datatype PlayerState = Playing | Paused | Stopped

  /** The two apps the widget can drive. */
  datatype App = Spotify | Music

  function AppName(app: App): string
  {
    match app
    case Spotify => "Spotify"
    case Music => "Music"
  }

  datatype TrackInfo = TrackInfo(
    name: string,
    artist: string,
    album: string,
    artworkUrl: Option<string>,
    durationMs: nat,
    positionMs: nat,
    state: PlayerState,
    source: string)

  /** `detect_active_player`: Spotify whenever it runs, else Music when it
      runs. */
  function DetectActivePlayer(spotifyRunning: bool, musicRunning: bool): (r: Option<App>)
    ensures r == Some(Spotify) <==> spotifyRunning
    ensures r == Some(Music) <==> !spotifyRunning && musicRunning
    ensures r.None? <==> !spotifyRunning && !musicRunning
  {
    if spotifyRunning then Some(Spotify)
    else if musicRunning then Some(Music)
    else None
  }

  /** The record separator of the script output. */
  const Sep: string := "|||"

  /** The state field: only the exact words `playing` and `paused` count. */
  function StateOf(field: string): (s: PlayerState)
    ensures s == Playing <==> field == "playing"
    ensures s == Paused <==> field == "paused"
  {
    if field == "playing" then Playing
    else if field == "paused" then Paused
    else Stopped
  }

  /** The artwork field: absent when empty or the placeholder `NONE`. */
  function ArtworkOf(field: string): (r: Option<string>)
    ensures r.None? <==> field == "" || field == "NONE"
    ensures r.Some? ==> r.value == field
  {
    if field == "" || field == "NONE" then None else Some(field)
  }

  /** The record parser inside `get_current_track`: `STOPPED`, or fewer than
      seven fields, give no track; otherwise the first seven fields are
      read and the rest ignored. `durationOf` and `positionOf` stand for the
      numeric conversions of fields 3 and 4. */
  function ParseTrackOutput(output: string, app: App,
                            durationOf: string -> nat, positionOf: string -> nat): (r: Option<TrackInfo>)
    ensures output == "STOPPED" ==> r.None?
    ensures r.Some? ==> r.value.source == AppName(app)
  {
    if output == "STOPPED" then None
    else
      var parts := SplitStr(output, Sep);
      if |parts| < 7 then None
      else Some(TrackOfFields(parts, app, durationOf, positionOf))
  }

  /** The track described by seven or more fields. */
  function TrackOfFields(parts: seq<string>, app: App,
                         durationOf: string -> nat, positionOf: string -> nat): TrackInfo
    requires |parts| >= 7
  {
    TrackInfo(parts[0], parts[1], parts[2], ArtworkOf(parts[6]),
              durationOf(parts[3]), positionOf(parts[4]), StateOf(parts[5]), AppName(app))
  }

  /** `get_current_track`: no track without a running app or when the script
      fails (`scriptOutput` is `None`); otherwise the trimmed output is
      parsed. */
  function GetCurrentTrack(spotifyRunning: bool, musicRunning: bool, scriptOutput: Option<string>,
                           durationOf: string -> nat, positionOf: string -> nat): (r: Option<TrackInfo>)
    ensures r.Some? ==> (spotifyRunning || musicRunning) && scriptOutput.Some?
    ensures r.Some? && spotifyRunning ==> r.value.source == "Spotify"
    ensures r.Some? && !spotifyRunning ==> r.value.source == "Music"
  {
    match DetectActivePlayer(spotifyRunning, musicRunning)
    case None => None
    case Some(app) =>
      match scriptOutput
      case None => None
      case Some(raw) => ParseTrackOutput(Trim(raw), app, durationOf, positionOf)
  }

  /** Round trip: fields free of `|` joined with `|||` parse back to the track
      they describe when there are at least seven, whatever follows the
      seventh, and to nothing when there are fewer. */
  lemma ParseJoinedFields(fields: seq<string>, app: App,
                          durationOf: string -> nat, positionOf: string -> nat, output: string)
    requires |fields| >= 1
    requires forall k | 0 <= k < |fields| :: '|' !in fields[k]
    requires output == JoinStr(fields, Sep)
    ensures |fields| >= 7 ==>
              ParseTrackOutput(output, app, durationOf, positionOf)
              == Some(TrackOfFields(fields, app, durationOf, positionOf))
    ensures |fields| < 7 ==> ParseTrackOutput(output, app, durationOf, positionOf).None?
  {
    SplitStrJoinStr(fields, Sep);
    if |fields| >= 2 {
      JoinedFieldsNotStopped(fields);
    }
  }

  /** Two or more fields never spell `STOPPED`, so the check for it only
      matters for a record without separators. */
  lemma JoinedFieldsNotStopped(fields: seq<string>)
    requires |fields| >= 2
    ensures JoinStr(fields, Sep) != "STOPPED"
  {
    var s := JoinStr(fields, Sep);
    assert s == fields[0] + Sep + JoinStr(fields[1..], Sep);
    assert s[|fields[0]|] == '|';
    assert '|' !in "STOPPED";
  }

  /** A record without a separator is one field, so it gives no track even
      when it is not `STOPPED`. */
  lemma NoSeparatorNoTrack(output: string, app: App,
                           durationOf: string -> nat, positionOf: string -> nat)
    requires FindStr(output, Sep).None?
    ensures ParseTrackOutput(output, app, durationOf, positionOf).None?
  {
    assert SplitStr(output, Sep) == [output];
  }
}

=== FILE: rust_str.dfy ===
/** The behaviour of the Rust standard-library string operations the modelled
    code calls (`find`, `split`, `lines`, `trim`, `parse::<u64>`,
    `from_str_radix`), written over `seq<char>`. Every definition follows the
    library's documented semantics, including its corner cases: `split` always
    yields at least one piece, `lines` drops one final empty line, and integer
    parsing accepts a leading `+`. */
module RustStr {
  import opened Base

  /** `char::is_whitespace`: the Unicode White_Space property. */
  predicate IsWhitespace(c: char)
  {
    var n := c as int;
    (9 <= n <= 13) || n == 0x20 || n == 0x85 || n == 0xA0 || n == 0x1680
    || (0x2000 <= n <= 0x200A) || n == 0x2028 || n == 0x2029 || n == 0x202F
    || n == 0x205F || n == 0x3000
  }

  predicate IsAscii(s: string)
  {
    forall i | 0 <= i < |s| :: (s[i] as int) < 128
  }

  // ---------------------------------------------------------------------
  // Trimming

  /** `s.trim_start()`: the longest suffix of `s` that does not start with
      whitespace. */
  function TrimStart(s: string): (r: string)
    ensures |r| <= |s| && r == s[|s| - |r|..]
    ensures forall i | 0 <= i < |s| - |r| :: IsWhitespace(s[i])
    ensures |r| > 0 ==> !IsWhitespace(r[0])
    decreases |s|
  {
    if |s| > 0 && IsWhitespace(s[0]) then TrimStart(s[1..]) else s
  }

  /** `s.trim_end()`: the longest prefix of `s` that does not end with
      whitespace. */
  function TrimEnd(s: string): (r: string)
    ensures |r| <= |s| && r == s[..|r|]
    ensures forall i | |r| <= i < |s| :: IsWhitespace(s[i])
    ensures |r| > 0 ==> !IsWhitespace(r[|r| - 1])
    decreases |s|
  {
    if |s| > 0 && IsWhitespace(s[|s| - 1]) then TrimEnd(s[..|s| - 1]) else s
  }

  /** `s.trim()`. */
  function Trim(s: string): string
  {
    TrimEnd(TrimStart(s))
  }

  /** Trimming twice is trimming once. */
  lemma TrimIdempotent(s: string)
    ensures Trim(Trim(s)) == Trim(s)
  {
    var t := TrimStart(s);
    var u := TrimEnd(t);
    if |u| > 0 {
      assert u[0] == t[0];
    }
    TrimUntouched(u);
  }

  /** Text with no whitespace at either end is left as it is. */
  lemma TrimUntouched(s: string)
    requires |s| > 0 ==> !IsWhitespace(s[0]) && !IsWhitespace(s[|s| - 1])
    ensures Trim(s) == s
  {
  }

  /** `s.trim_start_matches(c)`: drops every leading `c`. */
  function TrimStartMatches(s: string, c: char): (r: string)
    ensures |r| <= |s| && r == s[|s| - |r|..]
    ensures forall i | 0 <= i < |s| - |r| :: s[i] == c
    ensures |r| > 0 ==> r[0] != c
    decreases |s|
  {
    if |s| > 0 && s[0] == c then TrimStartMatches(s[1..], c) else s
  }

  /** `s.trim_end_matches(c)`: drops every trailing `c`. */
  function TrimEndMatches(s: string, c: char): (r: string)
    ensures |r| <= |s| && r == s[..|r|]
    ensures forall i | |r| <= i < |s| :: s[i] == c
    ensures |r| > 0 ==> r[|r| - 1] != c
    decreases |s|
  {
    if |s| > 0 && s[|s| - 1] == c then TrimEndMatches(s[..|s| - 1], c) else s
  }

  /** `s.trim_matches(c)`: drops every leading and trailing `c`. */
  function TrimMatches(s: string, c: char): string
  {
    TrimEndMatches(TrimStartMatches(s, c), c)
  }

  /** `trim_matches(c)` removes one `c` on each side of a `c`-free text. */
  lemma TrimMatchesWrapped(s: string, c: char)
    requires c !in s
    ensures TrimMatches([c] + s + [c], c) == s
  {
    var w := [c] + s + [c];
    if |s| == 0 {
      assert w == [c, c];
      assert w[1..] == [c] && [c][1..] == [];
    } else {
      var t := s + [c];
      assert w[1..] == t;
      assert t[0] == s[0];
      assert TrimStartMatches(w, c) == t;
      assert t[..|t| - 1] == s;
      assert s[|s| - 1] in s;
    }
  }

  // ---------------------------------------------------------------------
  // Searching

  /** `s.find(c)` for a `char` pattern: the first index holding `c`. */
  function FindChar(s: string, c: char): (r: Option<nat>)
    ensures r.None? <==> c !in s
    ensures r.Some? ==> r.value < |s| && s[r.value] == c && c !in s[..r.value]
    decreases |s|
  {
    if |s| == 0 then None
    else if s[0] == c then Some(0)
    else
      match FindChar(s[1..], c)
      case None => assert s == [s[0]] + s[1..]; None
      case Some(i) => assert s[..i + 1] == [s[0]] + s[1..][..i]; Some(i + 1)
  }

  /** The first `c` is the one right after a `c`-free prefix. */
  lemma FindCharAt(a: string, c: char, b: string)
    requires c !in a
    ensures FindChar(a + [c] + b, c) == Some(|a|)
  {
    var s := a + [c] + b;
    assert s[|a|] == c;
    assert s[..|a|] == a;
  }

  /** `pat` occurs in `s` starting at index `i`. */
  predicate OccursAt(s: string, pat: string, i: nat)
  {
    i + |pat| <= |s| && s[i..i + |pat|] == pat
  }

  function FindStrFrom(s: string, pat: string, i: nat): (r: Option<nat>)
    requires i <= |s|
    ensures r.Some? ==> i <= r.value && OccursAt(s, pat, r.value)
    ensures r.Some? ==> forall j | i <= j < r.value :: !OccursAt(s, pat, j)
    ensures r.None? ==> forall j | i <= j <= |s| :: !OccursAt(s, pat, j)
    decreases |s| - i
  {
    if OccursAt(s, pat, i) then Some(i)
    else if i == |s| then None
    else FindStrFrom(s, pat, i + 1)
  }

  /** `s.find(pat)` for a `&str` pattern: the first index at which `pat`
      occurs. */
  function FindStr(s: string, pat: string): (r: Option<nat>)
    ensures r.Some? ==> OccursAt(s, pat, r.value)
    ensures r.Some? ==> forall j | 0 <= j < r.value :: !OccursAt(s, pat, j)
    ensures r.None? ==> forall j | 0 <= j <= |s| :: !OccursAt(s, pat, j)
  {
    FindStrFrom(s, pat, 0)
  }

  // ---------------------------------------------------------------------
  // Splitting

  /** Glues pieces back together with `c` between neighbours: the inverse of
      `Split`. */
  function Join(parts: seq<string>, c: char): string
  {
    if |parts| == 0 then []
    else if |parts| == 1 then parts[0]
    else parts[0] + [c] + Join(parts[1..], c)
  }

  /** `s.split(c).collect::<Vec<_>>()`: the maximal `c`-free pieces of `s`,
      one more than there are `c`s. */
  function Split(s: string, c: char): (r: seq<string>)
    ensures |r| == multiset(s)[c] + 1
    ensures forall k | 0 <= k < |r| :: c !in r[k]
    ensures Join(r, c) == s
    ensures IsAscii(s) ==> forall k | 0 <= k < |r| :: IsAscii(r[k])
    decreases |s|
  {
    match FindChar(s, c)
    case None =>
      assert multiset(s)[c] == 0;
      [s]
    case Some(i) =>
      var rest := Split(s[i + 1..], c);
      SplitCons(s, c, i, rest);
      [s[..i]] + rest
  }

  /** The pieces of `s` are the piece before its first `c`, then the pieces
      of what follows that `c`. */
  lemma SplitCons(s: string, c: char, i: nat, rest: seq<string>)
    requires i < |s| && s[i] == c && c !in s[..i]
    requires |rest| == multiset(s[i + 1..])[c] + 1
    requires forall k | 0 <= k < |rest| :: c !in rest[k]
    requires Join(rest, c) == s[i + 1..]
    requires IsAscii(s[i + 1..]) ==> forall k | 0 <= k < |rest| :: IsAscii(rest[k])
    ensures var r := [s[..i]] + rest;
            |r| == multiset(s)[c] + 1
            && (forall k | 0 <= k < |r| :: c !in r[k])
            && Join(r, c) == s
            && (IsAscii(s) ==> forall k | 0 <= k < |r| :: IsAscii(r[k]))
  {
    var r := [s[..i]] + rest;
    SplitCount(s, c, i);
    JoinCons(s[..i], rest, c);
    assert s == s[..i] + [c] + s[i + 1..];
    assert forall k | 1 <= k < |r| :: r[k] == rest[k - 1];
  }

  /** Cutting at the first `c` leaves one `c` fewer. */
  lemma SplitCount(s: string, c: char, i: nat)
    requires i < |s| && s[i] == c && c !in s[..i]
    ensures multiset(s)[c] == multiset(s[i + 1..])[c] + 1
  {
    assert s == s[..i] + [c] + s[i + 1..];
    assert multiset(s) == multiset(s[..i]) + multiset([c]) + multiset(s[i + 1..]);
  }

  /** `Join` of a piece in front of at least one more. */
  lemma JoinCons(p: string, rest: seq<string>, c: char)
    requires |rest| >= 1
    ensures Join([p] + rest, c) == p + [c] + Join(rest, c)
  {
    assert ([p] + rest)[1..] == rest;
  }

  /** Gluing `c2`-free pieces with `c` gives a `c2`-free string. */
  lemma {:induction false} JoinFree(parts: seq<string>, c: char, c2: char)
    requires c != c2
    requires forall k | 0 <= k < |parts| :: c2 !in parts[k]
    ensures c2 !in Join(parts, c)
    decreases |parts|
  {
    if |parts| > 1 {
      JoinFree(parts[1..], c, c2);
    }
  }

  /** Splitting what `Join` glued gives back the pieces. */
  lemma {:induction false} SplitJoin(parts: seq<string>, c: char)
    requires |parts| >= 1
    requires forall k | 0 <= k < |parts| :: c !in parts[k]
    ensures Split(Join(parts, c), c) == parts
    decreases |parts|
  {
    if |parts| > 1 {
      SplitStep(parts[0], c, Join(parts[1..], c));
      SplitJoin(parts[1..], c);
      assert parts == [parts[0]] + parts[1..];
    } else {
      assert FindChar(parts[0], c).None?;
    }
  }

  /** A `c`-free piece followed by `c` splits off first. */
  lemma SplitStep(p: string, c: char, rest: string)
    requires c !in p
    ensures Split(p + [c] + rest, c) == [p] + Split(rest, c)
  {
    var s := p + [c] + rest;
    FindCharAt(p, c, rest);
    assert s[..|p|] == p;
    assert s[|p| + 1..] == rest;
  }

  /** Glues pieces back together with `sep` between neighbours. */
  function JoinStr(parts: seq<string>, sep: string): string
  {
    if |parts| == 0 then []
    else if |parts| == 1 then parts[0]
    else parts[0] + sep + JoinStr(parts[1..], sep)
  }

  /** `s.split(sep).collect::<Vec<_>>()` for a non-empty `&str` separator:
      matches are taken left to right without overlapping. */
  function SplitStr(s: string, sep: string): (r: seq<string>)
    requires |sep| > 0
    ensures |r| >= 1
    ensures JoinStr(r, sep) == s
    ensures forall k | 0 <= k < |r| :: FindStr(r[k], sep).None?
    ensures |r| == 1 <==> FindStr(s, sep).None?
    ensures |r| > 1 ==> FindStr(s, sep) == Some(|r[0]|)
    decreases |s|
  {
    match FindStr(s, sep)
    case None => [s]
    case Some(i) =>
      var rest := SplitStr(s[i + |sep|..], sep);
      assert s == s[..i] + sep + s[i + |sep|..];
      assert ([s[..i]] + rest)[1..] == rest;
      NoEarlierOccurrence(s, sep, i);
      [s[..i]] + rest
  }

  lemma NoEarlierOccurrence(s: string, pat: string, i: nat)
    requires |pat| > 0 && i <= |s|
    requires forall j | 0 <= j < i :: !OccursAt(s, pat, j)
    ensures FindStr(s[..i], pat).None?
  {
    forall j | 0 <= j <= i
      ensures !OccursAt(s[..i], pat, j)
    {
      if j + |pat| <= i {
        assert !OccursAt(s, pat, j);
        assert s[..i][j..j + |pat|] == s[j..j + |pat|];
      }
    }
  }

  /** `find` is pinned down by the first-occurrence property: an occurrence
      at `p` with none before it is what `find` returns. */
  lemma FindStrFirst(s: string, pat: string, p: nat)
    requires OccursAt(s, pat, p) && forall q | 0 <= q < p :: !OccursAt(s, pat, q)
    ensures FindStr(s, pat) == Some(p)
  {
  }

  /** A string whose first character is not the separator's first character
      holds no match before its end. */
  lemma FirstMatchAfter(p: string, sep: string, rest: string)
    requires |sep| > 0 && sep[0] !in p
    ensures FindStr(p + sep + rest, sep) == Some(|p|)
  {
    var s := p + sep + rest;
    assert s[|p|..|p| + |sep|] == sep;
    assert OccursAt(s, sep, |p|);
    forall j | 0 <= j < |p|
      ensures !OccursAt(s, sep, j)
    {
      assert s[j] == p[j];
    }
  }

  /** Splitting what `JoinStr` glued gives back the pieces, provided no piece
      contains the separator's first character. */
  lemma {:induction false} SplitStrJoinStr(parts: seq<string>, sep: string)
    requires |parts| >= 1 && |sep| > 0
    requires forall k | 0 <= k < |parts| :: sep[0] !in parts[k]
    ensures SplitStr(JoinStr(parts, sep), sep) == parts
    decreases |parts|
  {
    var p := parts[0];
    if |parts| == 1 {
      forall j | 0 <= j <= |p|
        ensures !OccursAt(p, sep, j)
      {
        if j < |p| { assert p[j] != sep[0]; }
      }
    } else {
      var rest := JoinStr(parts[1..], sep);
      FirstMatchAfter(p, sep, rest);
      var s := p + sep + rest;
      assert s[..|p|] == p;
      assert s[|p| + |sep|..] == rest;
      SplitStrJoinStr(parts[1..], sep);
      assert parts == [p] + parts[1..];
    }
  }

  // ---------------------------------------------------------------------
  // Lines

  /** Drops one trailing carriage return. */
  function StripCr(line: string): string
  {
    if |line| > 0 && line[|line| - 1] == '\r' then line[..|line| - 1] else line
  }

  /** `s.lines()`: pieces between line feeds; a carriage return right before a
      line feed is dropped with it, and a final line feed does not start an
      extra empty line. */
  function Lines(s: string): (r: seq<string>)
    ensures forall k | 0 <= k < |r| :: '\n' !in r[k]
    ensures IsAscii(s) ==> forall k | 0 <= k < |r| :: IsAscii(r[k])
    ensures s == [] <==> r == []
    decreases |s|
  {
    if |s| == 0 then []
    else
      match FindChar(s, '\n')
      case None => [s]
      case Some(i) => [StripCr(s[..i])] + Lines(s[i + 1..])
  }

  /** A line feed splits off exactly the text before it. */
  lemma LinesCons(a: string, b: string)
    requires '\n' !in a
    ensures Lines(a + "\n" + b) == [StripCr(a)] + Lines(b)
  {
    var s := a + "\n" + b;
    assert s[|a|] == '\n';
    assert s[..|a|] == a;
    assert s[|a| + 1..] == b;
  }

  /** Text without a line feed is one line. */
  lemma LinesOne(s: string)
    requires |s| > 0 && '\n' !in s
    ensures Lines(s) == [s]
  {
  }

  /** Every line terminated by a line feed. */
  function Terminated(ls: seq<string>): string
  {
    if |ls| == 0 then [] else ls[0] + "\n" + Terminated(ls[1..])
  }

  /** `lines` undoes line-feed termination of lines that hold no line feed
      and do not end in a carriage return. */
  lemma {:induction false} LinesTerminated(ls: seq<string>)
    requires forall k | 0 <= k < |ls| :: '\n' !in ls[k] && StripCr(ls[k]) == ls[k]
    ensures Lines(Terminated(ls)) == ls
    decreases |ls|
  {
    if |ls| > 0 {
      LinesCons(ls[0], Terminated(ls[1..]));
      LinesTerminated(ls[1..]);
      assert ls == [ls[0]] + ls[1..];
    }
  }

  // ---------------------------------------------------------------------
  // Integers

  predicate IsDigit(c: char)
  {
    '0' <= c <= '9'
  }

  predicate AllDigits(s: string)
  {
    forall i | 0 <= i < |s| :: IsDigit(s[i])
  }

  function DigitValue(c: char): nat
    requires IsDigit(c)
  {
    (c as int) - ('0' as int)
  }

  function DigitChar(d: nat): (c: char)
    requires d < 10
    ensures IsDigit(c) && DigitValue(c) == d
  {
    (('0' as int) + d) as char
  }

  /** The value of a decimal digit string, most significant digit first. */
  function DecimalValue(s: string): nat
    requires AllDigits(s)
    decreases |s|
  {
    if |s| == 0 then 0 else 10 * DecimalValue(s[..|s| - 1]) + DigitValue(s[|s| - 1])
  }

  /** `s.parse::<u64>().ok()`: an optional `+` followed by at least one ASCII
      digit, with a value that fits in 64 bits. */
  function ParseU64(s: string): (r: Option<nat>)
    ensures r.Some? ==> r.value <= U64_MAX
    ensures r.Some? ==> |s| > 0 && forall i | 0 <= i < |s| :: IsDigit(s[i]) || (i == 0 && s[i] == '+')
  {
    var digits := if |s| > 0 && s[0] == '+' then s[1..] else s;
    if |digits| == 0 || !AllDigits(digits) then None
    else if DecimalValue(digits) <= U64_MAX then Some(DecimalValue(digits))
    else None
  }

  /** The shortest decimal spelling of `n` (`n.to_string()`). */
  function NatToDecimal(n: nat): (r: string)
    ensures |r| > 0 && AllDigits(r)
    ensures DecimalValue(r) == n
    decreases n
  {
    if n < 10 then [DigitChar(n)]
    else
      var r := NatToDecimal(n / 10) + [DigitChar(n % 10)];
      assert r[..|r| - 1] == NatToDecimal(n / 10);
      r
  }

  /** Leading zeros do not change a decimal value. */
  lemma {:induction false} LeadingZero(s: string)
    requires AllDigits(s)
    ensures AllDigits("0" + s) && DecimalValue("0" + s) == DecimalValue(s)
    decreases |s|
  {
    var z := "0" + s;
    if |s| > 0 {
      assert z[..|z| - 1] == "0" + s[..|s| - 1];
      LeadingZero(s[..|s| - 1]);
    }
  }

  /** `parse::<u64>` reads back every decimal spelling it could print. */
  lemma ParseU64Decimal(n: nat)
    requires n <= U64_MAX
    ensures ParseU64(NatToDecimal(n)) == Some(n)
  {
  }

  /** The value of one hexadecimal digit, either case. */
  function HexDigitValue(c: char): Option<nat>
  {
    if '0' <= c <= '9' then Some((c as int) - ('0' as int))
    else if 'a' <= c <= 'f' then Some((c as int) - ('a' as int) + 10)
    else if 'A' <= c <= 'F' then Some((c as int) - ('A' as int) + 10)
    else None
  }

  predicate AllHexDigits(s: string)
  {
    forall i | 0 <= i < |s| :: HexDigitValue(s[i]).Some?
  }

  function HexValue(s: string): nat
    requires AllHexDigits(s)
    decreases |s|
  {
    if |s| == 0 then 0 else 16 * HexValue(s[..|s| - 1]) + HexDigitValue(s[|s| - 1]).value
  }

  /** `u8::from_str_radix(s, 16).ok()`: an optional `+` followed by at least
      one hexadecimal digit, with a value below 256. */
  function ParseHexU8(s: string): (r: Option<Byte>)
  {
    var digits := if |s| > 0 && s[0] == '+' then s[1..] else s;
    if |digits| == 0 || !AllHexDigits(digits) then None
    else if HexValue(digits) < 256 then Some(HexValue(digits))
    else None
  }
}

=== FILE: theme.dfy ===
/** Colour themes of `src/theme.rs`: the `#rrggbb` parser, the built-in
    Catppuccin Mocha palette, and the `THEMES[id]="name|c1|...|c10"` lookup in
    a shell-script definitions file. Colour parsing slices by byte offset, so
    the definitions are taken to be ASCII text, where bytes and characters
    coincide. */
module Theme {
  import opened Base
  import opened RustStr

  /** The two kinds of `ratatui::style::Color` the parser produces. */
  datatype Color = Reset | Rgb(r: Byte, g: Byte, b: Byte)

  /** `Theme`: a name and ten palette colours. */
  datatype Theme = Theme(
    name: string,
    base: Color, text: Color,
    red: Color, green: Color, yellow: Color, blue: Color,
    magenta: Color, cyan: Color,
    surface: Color, overlay: Color)

  /** `Theme::default`: Catppuccin Mocha. */
  function Default(): (t: Theme)
    ensures t.name == "Catppuccin Mocha"
    ensures t.base.Rgb? && t.text.Rgb? && t.red.Rgb? && t.green.Rgb? && t.yellow.Rgb?
            && t.blue.Rgb? && t.magenta.Rgb? && t.cyan.Rgb? && t.surface.Rgb? && t.overlay.Rgb?
  {
    Theme("Catppuccin Mocha",
          Rgb(30, 30, 46), Rgb(205, 214, 244),
          Rgb(243, 139, 168), Rgb(166, 227, 161), Rgb(249, 226, 175), Rgb(137, 180, 250),
          Rgb(203, 166, 247), Rgb(148, 226, 213),
          Rgb(49, 50, 68), Rgb(108, 112, 134))
  }

  // ---------------------------------------------------------------------
  // Hex colours

  /** One channel: the pair read as a hexadecimal `u8`, or 0 when that
      fails (`unwrap_or(0)`). */
  function Channel(pair: string): Byte
  {
    match ParseHexU8(pair)
    case Some(v) => v
    case None => 0
  }

  /** `parse_hex`: after every leading `#` is dropped, exactly six characters
      give three channels; any other length gives `Reset`. */
  function ParseHex(hex: string): (c: Color)
    requires IsAscii(hex)
    ensures c.Reset? <==> |TrimStartMatches(hex, '#')| != 6
  {
    var h := TrimStartMatches(hex, '#');
    if |h| == 6 then Rgb(Channel(h[0..2]), Channel(h[2..4]), Channel(h[4..6]))
    else Reset
  }

  /** `n` copies of `#`. */
  function Hashes(n: nat): (r: string)
    ensures |r| == n && forall i | 0 <= i < n :: r[i] == '#'
  {
    if n == 0 then [] else "#" + Hashes(n - 1)
  }

  /** Leading `#`s are dropped whatever their number. */
  lemma StripHashes(n: nat, s: string)
    requires |s| > 0 ==> s[0] != '#'
    ensures TrimStartMatches(Hashes(n) + s, '#') == s
  {
    var t := Hashes(n) + s;
    var r := TrimStartMatches(t, '#');
    assert forall i | 0 <= i < n :: t[i] == '#';
    assert t[n..] == s;
    assert |s| > 0 ==> t[n] != '#';
    assert |r| == |s|;
  }

  /** The channels are independent: each two-character pair gives its own
      channel, and a pair that is not hexadecimal gives 0 for that channel
      only. */
  lemma ChannelsIndependent(n: nat, p1: string, p2: string, p3: string, hex: string)
    requires |p1| == 2 && |p2| == 2 && |p3| == 2 && p1[0] != '#'
    requires hex == Hashes(n) + p1 + p2 + p3 && IsAscii(hex)
    ensures ParseHex(hex) == Rgb(Channel(p1), Channel(p2), Channel(p3))
  {
    var s := p1 + p2 + p3;
    assert hex == Hashes(n) + s;
    assert s[0] == p1[0];
    StripHashes(n, s);
    assert TrimStartMatches(hex, '#') == s && |s| == 6;
    assert s[0..2] == p1 && s[2..4] == p2 && s[4..6] == p3;
  }

  /** The lower-case hexadecimal digit for `d`. */
  function HexDigitChar(d: nat): (c: char)
    requires d < 16
    ensures HexDigitValue(c) == Some(d)
  {
    if d < 10 then (('0' as int) + d) as char else (('a' as int) + d - 10) as char
  }

  /** Two hexadecimal digits, high digit first, parse to their value. */
  lemma HexPairValue(hi: char, lo: char)
    requires HexDigitValue(hi).Some? && HexDigitValue(lo).Some?
    ensures Channel([hi, lo]) == 16 * HexDigitValue(hi).value + HexDigitValue(lo).value
  {
    var s := [hi, lo];
    assert s[..1] == [hi];
    assert [hi][..0] == [];
    assert HexValue([hi]) == HexDigitValue(hi).value;
    assert HexValue(s) == 16 * HexDigitValue(hi).value + HexDigitValue(lo).value;
  }

  /** `#rrggbb` in lower case, as the theme file writes colours. */
  function FormatHex(r: Byte, g: Byte, b: Byte): (s: string)
    ensures |s| == 7 && s[0] == '#' && IsAscii(s)
  {
    "#" + [HexDigitChar(r / 16), HexDigitChar(r % 16),
           HexDigitChar(g / 16), HexDigitChar(g % 16),
           HexDigitChar(b / 16), HexDigitChar(b % 16)]
  }

  /** Six hexadecimal digits of either case after any number of `#` parse
      to the channels they spell. */
  lemma ParseHexDigits(n: nat, s: string, hex: string)
    requires |s| == 6 && forall i | 0 <= i < 6 :: HexDigitValue(s[i]).Some?
    requires hex == Hashes(n) + s && IsAscii(hex)
    ensures ParseHex(hex)
         == Rgb(16 * HexDigitValue(s[0]).value + HexDigitValue(s[1]).value,
                16 * HexDigitValue(s[2]).value + HexDigitValue(s[3]).value,
                16 * HexDigitValue(s[4]).value + HexDigitValue(s[5]).value)
  {
    assert s[0] != '#' by { assert HexDigitValue(s[0]).Some?; }
    assert s == [s[0], s[1]] + [s[2], s[3]] + [s[4], s[5]];
    ChannelsIndependent(n, [s[0], s[1]], [s[2], s[3]], [s[4], s[5]], hex);
    HexPairValue(s[0], s[1]);
    HexPairValue(s[2], s[3]);
    HexPairValue(s[4], s[5]);
  }

  /** Round trip: `parse_hex` reads back every colour written as `#rrggbb`. */
  lemma ParseFormatHex(r: Byte, g: Byte, b: Byte)
    ensures ParseHex(FormatHex(r, g, b)) == Rgb(r, g, b)
  {
    var s := FormatHex(r, g, b);
    var digits := s[1..];
    assert s == Hashes(1) + digits;
    ParseHexDigits(1, digits, s);
  }

  /** A theme's ten colours in file order, from `base` to `overlay`. */
  function Palette(t: Theme): (cs: seq<Color>)
    ensures |cs| == 10
  {
    [t.base, t.text, t.red, t.green, t.yellow, t.blue, t.magenta, t.cyan, t.surface, t.overlay]
  }

  /** The `#rrggbb` codes the default palette is written down with. */
  const MochaCodes: seq<string> :=
    ["#1e1e2e", "#cdd6f4", "#f38ba8", "#a6e3a1", "#f9e2af",
     "#89b4fa", "#cba6f7", "#94e2d5", "#313244", "#6c7086"]

  /** The default palette is the one its comments spell in hex: each colour
      is what `parse_hex` reads from its `#rrggbb` code. */
  lemma DefaultHexCodes()
    ensures forall k | 0 <= k < 10 :: IsAscii(MochaCodes[k]) && ParseHex(MochaCodes[k]) == Palette(Default())[k]
  {
    forall k | 0 <= k < 10
      ensures IsAscii(MochaCodes[k]) && ParseHex(MochaCodes[k]) == Palette(Default())[k]
    {
      DefaultHexCode(k);
    }
  }

  lemma DefaultHexCode(k: nat)
    requires k < 10
    ensures IsAscii(MochaCodes[k]) && ParseHex(MochaCodes[k]) == Palette(Default())[k]
  {
    var c := Palette(Default())[k];
    HexCode(MochaCodes[k], c.r, c.g, c.b);
  }

  /** A `#` and six hexadecimal digits parse to the channels they spell. */
  lemma HexCode(code: string, r: Byte, g: Byte, b: Byte)
    requires |code| == 7 && code[0] == '#' && forall i | 1 <= i < 7 :: HexDigitValue(code[i]).Some?
    requires r == 16 * HexDigitValue(code[1]).value + HexDigitValue(code[2]).value
    requires g == 16 * HexDigitValue(code[3]).value + HexDigitValue(code[4]).value
    requires b == 16 * HexDigitValue(code[5]).value + HexDigitValue(code[6]).value
    ensures IsAscii(code) && ParseHex(code) == Rgb(r, g, b)
  {
    HexCodeDigits(code);
  }

  lemma HexCodeDigits(code: string)
    requires |code| == 7 && code[0] == '#' && forall i | 1 <= i < 7 :: HexDigitValue(code[i]).Some?
    ensures IsAscii(code)
    ensures ParseHex(code)
         == Rgb(16 * HexDigitValue(code[1]).value + HexDigitValue(code[2]).value,
                16 * HexDigitValue(code[3]).value + HexDigitValue(code[4]).value,
                16 * HexDigitValue(code[5]).value + HexDigitValue(code[6]).value)
  {
    var s := code[1..];
    HexCodeAscii(code);
    assert Hashes(1) == ['#'];
    assert code == Hashes(1) + s;
    ParseHexDigits(1, s, code);
  }

  lemma HexCodeAscii(code: string)
    requires |code| > 0 && code[0] == '#' && forall i | 1 <= i < |code| :: HexDigitValue(code[i]).Some?
    ensures IsAscii(code)
  {
    assert forall i | 1 <= i < |code| :: '0' <= code[i] <= 'f' by {
      forall i | 1 <= i < |code| ensures '0' <= code[i] <= 'f' {
        assert HexDigitValue(code[i]).Some?;
      }
    }
  }

  // ---------------------------------------------------------------------
  // Theme lookup

  /** The key searched for: `THEMES[<id>]=`. */
  function ThemeKey(id: string): string
  {
    "THEMES[" + id + "]="
  }

  /** One definitions line: the text after the first occurrence of the key,
      when the key occurs. */
  function ThemeFromLine(line: string, key: string): (r: Option<Theme>)
    requires IsAscii(line)
    ensures FindStr(line, key).None? ==> r.None?
    ensures FindStr(line, key).Some? ==>
              FindStr(line, key).value + |key| <= |line| &&
              IsAscii(line[FindStr(line, key).value + |key|..]) &&
              r == ThemeFromValue(line[FindStr(line, key).value + |key|..])
  {
    match FindStr(line, key)
    case None => None
    case Some(pos) =>
      assert OccursAt(line, key, pos);
      AsciiSlice(line, pos + |key|);
      ThemeFromValue(line[pos + |key|..])
  }

  /** A line whose first occurrence of the key is at `p` yields the theme
      read from the text after that occurrence. */
  lemma ThemeFromLineAt(line: string, key: string, p: nat)
    requires IsAscii(line)
    requires OccursAt(line, key, p) && forall q | 0 <= q < p :: !OccursAt(line, key, q)
    ensures p + |key| <= |line| && IsAscii(line[p + |key|..])
    ensures ThemeFromLine(line, key) == ThemeFromValue(line[p + |key|..])
  {
    FindStrFirst(line, key, p);
    AsciiSlice(line, p + |key|);
    assert line[FindStr(line, key).value + |key|..] == line[p + |key|..];
  }

  /** A line in which the key occurs nowhere yields nothing. */
  lemma ThemeFromLineAbsent(line: string, key: string)
    requires IsAscii(line)
    requires forall q | 0 <= q <= |line| :: !OccursAt(line, key, q)
    ensures ThemeFromLine(line, key).None?
  {
  }

  /** The value after the key, with every surrounding `"` removed, split on
      `|`: at least eleven fields make a theme. */
  function ThemeFromValue(rest: string): Option<Theme>
    requires IsAscii(rest)
  {
    var value := TrimMatches(rest, '"');
    AsciiTrimMatches(rest, '"');
    var parts := Split(value, '|');
    if |parts| >= 11 then Some(ThemeOfFields(parts)) else None
  }

  /** Round trip: a definitions line holding the key, after text in which
      the key does not start, followed by the quoted `|`-joined fields, yields
      the theme of those fields when there are at least eleven, and nothing
      otherwise. */
  lemma ThemeLineRoundTrip(prefix: string, id: string, fields: seq<string>, rest: string, line: string)
    requires |fields| >= 1
    requires forall k | 0 <= k < |fields| :: '|' !in fields[k] && '"' !in fields[k] && IsAscii(fields[k])
    requires rest == "\"" + Join(fields, '|') + "\""
    requires line == prefix + ThemeKey(id) + rest && IsAscii(line)
    requires forall q | 0 <= q < |prefix| :: !OccursAt(line, ThemeKey(id), q)
    ensures |fields| >= 11 ==> ThemeFromLine(line, ThemeKey(id)) == Some(ThemeOfFields(fields))
    ensures |fields| < 11 ==> ThemeFromLine(line, ThemeKey(id)).None?
  {
    var key := ThemeKey(id);
    assert line[|prefix|..|prefix| + |key|] == key;
    ThemeFromLineAt(line, key, |prefix|);
    assert line[|prefix| + |key|..] == rest;
    ValueRoundTrip(fields, rest);
  }

  /** The key is found right after a prefix without its first character. */
  lemma KeyFound(prefix: string, key: string, rest: string, line: string)
    requires |key| > 0 && key[0] !in prefix
    requires line == prefix + key + rest && IsAscii(line)
    ensures FindStr(line, key) == Some(|prefix|)
    ensures line[|prefix| + |key|..] == rest
    ensures ThemeFromLine(line, key) == ThemeFromValue(rest)
  {
    FirstMatchAfter(prefix, key, rest);
  }

  /** Quoted `|`-joined fields give the theme of the fields, or nothing when
      there are fewer than eleven. */
  lemma ValueRoundTrip(fields: seq<string>, rest: string)
    requires |fields| >= 1
    requires forall k | 0 <= k < |fields| :: '|' !in fields[k] && '"' !in fields[k] && IsAscii(fields[k])
    requires rest == "\"" + Join(fields, '|') + "\"" && IsAscii(rest)
    ensures |fields| >= 11 ==> ThemeFromValue(rest) == Some(ThemeOfFields(fields))
    ensures |fields| < 11 ==> ThemeFromValue(rest).None?
  {
    var value := Join(fields, '|');
    JoinFree(fields, '|', '"');
    TrimMatchesWrapped(value, '"');
    SplitJoin(fields, '|');
  }

  lemma AsciiSlice(s: string, i: nat)
    requires IsAscii(s) && i <= |s|
    ensures IsAscii(s[i..])
  {
    assert forall k | 0 <= k < |s| - i :: s[i..][k] == s[i + k];
  }

  lemma AsciiTrimMatches(s: string, c: char)
    requires IsAscii(s)
    ensures IsAscii(TrimMatches(s, c))
  {
    var t := TrimStartMatches(s, c);
    AsciiSlice(s, |s| - |t|);
    assert forall k | 0 <= k < |TrimEndMatches(t, c)| :: TrimEndMatches(t, c)[k] == t[k];
  }

  /** The theme built from an eleven-or-more field list. */
  function ThemeOfFields(parts: seq<string>): Theme
    requires |parts| >= 11
    requires forall k | 0 <= k < |parts| :: IsAscii(parts[k])
  {
    Theme(parts[0],
          ParseHex(parts[1]), ParseHex(parts[2]),
          ParseHex(parts[3]), ParseHex(parts[4]), ParseHex(parts[5]), ParseHex(parts[6]),
          ParseHex(parts[7]), ParseHex(parts[8]),
          ParseHex(parts[9]), ParseHex(parts[10]))
  }

  /** What each line of the definitions yields. */
  function LineThemes(lines: seq<string>, key: string): (r: seq<Option<Theme>>)
    requires forall k | 0 <= k < |lines| :: IsAscii(lines[k])
    ensures |r| == |lines| && forall k | 0 <= k < |lines| :: r[k] == ThemeFromLine(lines[k], key)
  {
    seq(|lines|, k requires 0 <= k < |lines| => ThemeFromLine(lines[k], key))
  }

  /** The first line that yields a theme wins, whatever the lines after it
      hold; with no such line the result is exactly the default. */
  function FindTheme(lines: seq<string>, key: string): (t: Theme)
    requires forall k | 0 <= k < |lines| :: IsAscii(lines[k])
    ensures var ths := LineThemes(lines, key);
            ((forall k | 0 <= k < |ths| :: ths[k].None?) ==> t == Default())
            && (forall i | 0 <= i < |ths| ::
                  ths[i].Some? && (forall j | 0 <= j < i :: ths[j].None?) ==> t == ths[i].value)
            && (t != Default() ==> exists k | 0 <= k < |ths| :: ths[k] == Some(t))
  {
    FirstTheme(LineThemes(lines, key))
  }

  /** The first theme among per-line results, or the default when there is
      none. */
  function FirstTheme(ths: seq<Option<Theme>>): (t: Theme)
    ensures (forall k | 0 <= k < |ths| :: ths[k].None?) ==> t == Default()
    ensures forall i | 0 <= i < |ths| ::
              ths[i].Some? && (forall j | 0 <= j < i :: ths[j].None?) ==> t == ths[i].value
    ensures t != Default() ==> exists k | 0 <= k < |ths| :: ths[k] == Some(t)
  {
    match FirstSome(ths)
    case Some(t) => t
    case None => Default()
  }

  /** `load_current_theme` without the file reads: the cached theme id and
      the definitions file, each absent when it could not be read. */
  function LoadTheme(cache: Option<string>, definitions: Option<string>): (t: Theme)
    requires definitions.Some? ==> IsAscii(definitions.value)
    ensures cache.None? || definitions.None? ==> t == Default()
    ensures cache.Some? && definitions.Some? && t != Default() ==>
              exists k | 0 <= k < |Lines(definitions.value)| ::
                ThemeFromLine(Lines(definitions.value)[k], ThemeKey(Trim(cache.value))) == Some(t)
  {
    match cache
    case None => Default()
    case Some(id) =>
      match definitions
      case None => Default()
      case Some(content) => FindTheme(Lines(content), ThemeKey(Trim(id)))
  }

  /** A missing cache or definitions file gives the default theme; surrounding
      whitespace in the cached id does not matter. */
  lemma LoadThemeFallback(cache: Option<string>, definitions: Option<string>)
    requires definitions.Some? ==> IsAscii(definitions.value)
    ensures cache.None? || definitions.None? ==> LoadTheme(cache, definitions) == Default()
    ensures cache.Some? ==> LoadTheme(cache, definitions) == LoadTheme(Some(Trim(cache.value)), definitions)
  {
    if cache.Some? {
      TrimIdempotent(cache.value);
    }
  }
}

=== FILE: time_label.dfy ===
/** The `mm:ss / mm:ss` label under the progress bar (`src/ui.rs`): whole
    minutes, then the whole seconds left over, each printed with `{:02}`. */
module TimeLabel {
  import opened Base
  import opened RustStr
  import opened Lyrics

  function Minutes(ms: nat): nat
  {
    ms / 60000
  }

  function Seconds(ms: nat): nat
  {
    (ms % 60000) / 1000
  }

  /** The two fields truncate the time to whole seconds: the seconds field
      is below 60, and together they fall less than a second short of `ms`. */
  lemma ClockSplit(ms: nat)
    ensures Seconds(ms) < 60
    ensures Minutes(ms) * 60000 + Seconds(ms) * 1000 <= ms < Minutes(ms) * 60000 + Seconds(ms) * 1000 + 1000
  {
    var rem := ms % 60000;
    assert ms == Minutes(ms) * 60000 + rem;
    assert rem == Seconds(ms) * 1000 + rem % 1000;
  }

  /** `{:02}`: the decimal digits, with a leading zero below ten. */
  function Pad2(n: nat): (r: string)
    ensures |r| >= 2 && AllDigits(r) && DecimalValue(r) == n
    ensures n >= 10 ==> r == NatToDecimal(n)
    ensures n < 100 ==> |r| == 2
  {
    if n < 10 then
      LeadingZero(NatToDecimal(n));
      "0" + NatToDecimal(n)
    else
      NatToDecimal(n)
  }

  /** `mm:ss` for one time. */
  function Clock(ms: nat): (r: string)
    ensures |r| >= 5 && r[|r| - 3] == ':'
    ensures var mm := r[..|r| - 3];
            |mm| >= 2 && AllDigits(mm) && DecimalValue(mm) == Minutes(ms)
    ensures var ss := r[|r| - 2..];
            AllDigits(ss) && DecimalValue(ss) == Seconds(ms) && DecimalValue(ss) < 60
  {
    var mm := Pad2(Minutes(ms));
    var ss := Pad2(Seconds(ms));
    var r := mm + ":" + ss;
    assert r[..|r| - 3] == mm && r[|r| - 2..] == ss;
    r
  }

  /** The whole label: position, then duration. */
  function Label(positionMs: nat, durationMs: nat): string
  {
    Clock(positionMs) + " / " + Clock(durationMs)
  }

  /** A printed clock reads back, as an LRC timestamp without a fraction, to
      the time truncated to whole seconds. */
  lemma ClockReadsBack(ms: nat)
    requires ms <= U64_MAX
    ensures ParseTimestamp(Clock(ms)) == Some(Minutes(ms) * 60000 + Seconds(ms) * 1000)
  {
    ClockSplit(ms);
    DigitFieldsParse(Pad2(Minutes(ms)), Pad2(Seconds(ms)), Minutes(ms), Seconds(ms), Clock(ms));
  }

  /** Two digit strings joined by a colon parse to their clock value. */
  lemma DigitFieldsParse(min: string, sec: string, m: nat, s: nat, ts: string)
    requires |min| > 0 && AllDigits(min) && DecimalValue(min) == m && m <= U64_MAX
    requires |sec| > 0 && AllDigits(sec) && DecimalValue(sec) == s && s <= U64_MAX
    requires ts == min + ":" + sec
    ensures ParseTimestamp(ts) == Some(m * 60000 + s * 1000)
  {
    DigitsParse(min, m);
    DigitsParse(sec, s);
    NoFraction(min, sec, ts);
    ClockValueOf(min, sec, m, s);
  }

  lemma ClockValueOf(min: string, sec: string, m: nat, s: nat)
    requires ParseU64(min) == Some(m) && ParseU64(sec) == Some(s)
    ensures ClockValue(min, sec, Some(0)) == Some(m * 60000 + s * 1000)
  {
  }

  /** A digit string parses to its value and holds no separator. */
  lemma DigitsParse(t: string, v: nat)
    requires |t| > 0 && AllDigits(t) && DecimalValue(t) == v && v <= U64_MAX
    ensures ParseU64(t) == Some(v) && ':' !in t && '.' !in t
  {
    assert forall i | 0 <= i < |t| :: IsDigit(t[i]);
  }
}

=== FILE: ui.dfy ===
/** The numeric decisions of the frame drawn by `ui` in `src/ui.rs` that
    feed back into the state: whether a lyrics panel is laid out, where the
    three control buttons go, and which click targets the frame leaves in
    the state. The rectangles ratatui's layout computes are inputs. */
module Ui {
  import opened Base
  import opened Geometry
  import opened LyricsView
  import opened AppState

  /** The lyrics panel beside the music card, or under it. */
  datatype PanelMode = Beside | Below

  /** Where the lyrics panel goes on a `width × height` terminal: beside the
      card when the terminal is wide and not in tmux, under it when the
      terminal is tall, nowhere otherwise or when lyrics are switched off. */
  function LyricsPanel(showLyrics: bool, isTmux: bool, width: nat, height: nat): (m: Option<PanelMode>)
    ensures m.Some? <==> showLyrics && ((!isTmux && width >= 90) || height >= 40)
    ensures m == Some(Beside) <==> showLyrics && !isTmux && width >= 90
  {
    if showLyrics then
      if !isTmux && width >= 90 then Some(Beside)
      else if height < 40 then None
      else Some(Below)
    else None
  }

  /** Growing the terminal never takes the lyrics panel away. */
  lemma PanelMonotone(showLyrics: bool, isTmux: bool, w1: nat, h1: nat, w2: nat, h2: nat)
    requires w1 <= w2 && h1 <= h2
    ensures LyricsPanel(showLyrics, isTmux, w1, h1).Some? ==> LyricsPanel(showLyrics, isTmux, w2, h2).Some?
  {
  }

  /** The three buttons, seven cells wide, placed around the middle of the
      controls row. */
  datatype Buttons = Buttons(prev: Rect, play: Rect, next: Rect)

  function PlaceButtons(area: Rect): (b: Buttons)
    ensures b.prev.y == area.y && b.play.y == area.y && b.next.y == area.y
    ensures b.prev.width == 7 && b.play.width == 7 && b.next.width == 7
    ensures b.prev.height == 1 && b.play.height == 1 && b.next.height == 1
    ensures var mid := area.x + area.width / 2;
            (mid >= 3 ==> b.play.x + 3 == mid) && (mid >= 13 ==> b.prev.x + 13 == mid)
            && b.next.x == mid + 7
    ensures var mid := area.x + area.width / 2;
            (mid < 3 ==> b.play.x == 0) && (mid < 13 ==> b.prev.x == 0)
  {
    var mid := area.x + area.width / 2;
    Buttons(Rect(SatSub(mid, 13), area.y, 7, 1),
            Rect(SatSub(mid, 3), area.y, 7, 1),
            Rect(mid + 7, area.y, 7, 1))
  }

  /** With room left of the middle, the buttons sit in order with a gap of
      three cells between neighbours, so no cell belongs to two of them. */
  lemma ButtonsApart(area: Rect, px: nat, py: nat)
    requires area.x + area.width / 2 >= 13 && area.x + area.width / 2 + 14 <= U16_MAX
    ensures var b := PlaceButtons(area);
            Right(b.prev) + 3 == b.play.x && Right(b.play) + 3 == b.next.x
    ensures var b := PlaceButtons(area);
            !(Contains(b.prev, px, py) && Contains(b.play, px, py))
            && !(Contains(b.play, px, py) && Contains(b.next, px, py))
            && !(Contains(b.prev, px, py) && Contains(b.next, px, py))
  {
  }

  /** Near the left edge the saturating placement makes the previous and
      play buttons overlap; the shared cells act as "previous", which is
      tested first. */
  lemma NarrowButtonsOverlap(app: App)
    requires app.prevBtn == PlaceButtons(Rect(0, 0, 10, 1)).prev
    requires app.playBtn == PlaceButtons(Rect(0, 0, 10, 1)).play
    ensures Contains(app.playBtn, 2, 0)
    ensures HandleClick(app, 2, 0) == Prev
  {
  }

  /** What ratatui's layout produced for one frame: the terminal size, the
      inside of the lyrics panel, and the progress bar and controls row when
      the music card has room for them. */
  datatype FrameLayout = FrameLayout(width: nat, height: nat, lyricsInner: Rect,
                                     gauge: Option<Rect>, controls: Option<Rect>)

  /** The playback position the panel follows: the track's, or 0. */
  function PanelPosition(app: App): nat
  {
    match app.track
    case Some(t) => t.positionMs
    case None => 0
  }

  /** The click targets a frame leaves: with a panel the table is cleared
      and refilled from the shown lines; without one the previous table
      stays. */
  function FrameHitboxes(app: App, frame: FrameLayout): (r: seq<Hitbox>)
    ensures LyricsPanel(app.showLyrics, app.isTmux, frame.width, frame.height).None? ==> r == app.hitboxes
    ensures LyricsPanel(app.showLyrics, app.isTmux, frame.width, frame.height).Some? && app.lyrics.None? ==> r == []
    ensures LyricsPanel(app.showLyrics, app.isTmux, frame.width, frame.height).Some? && app.lyrics.Some? ==>
              |r| <= frame.lyricsInner.height && |r| <= |app.lyrics.value|
              && forall k | 0 <= k < |r| ::
                   r[k].area == Rect(frame.lyricsInner.x, frame.lyricsInner.y + k, frame.lyricsInner.width, 1)
    ensures LyricsPanel(app.showLyrics, app.isTmux, frame.width, frame.height).Some? && app.lyrics.Some? ==>
              r == Render(frame.lyricsInner, app.lyrics.value, app.lyricsOffset, PanelPosition(app)).hitboxes
  {
    if LyricsPanel(app.showLyrics, app.isTmux, frame.width, frame.height).None? then app.hitboxes
    else
      match app.lyrics
      case None => []
      case Some(lyrics) => Render(frame.lyricsInner, lyrics, app.lyricsOffset, PanelPosition(app)).hitboxes
  }

  /** The state after drawing a frame: with a track, the progress bar and
      the buttons move to where they were drawn; the click targets of the
      lyrics panel are refreshed; nothing else changes. */
  function DrawFrame(app: App, frame: FrameLayout): (a: App)
    ensures a == app.(progressRect := a.progressRect, prevBtn := a.prevBtn, playBtn := a.playBtn,
                      nextBtn := a.nextBtn, hitboxes := a.hitboxes)
    ensures app.track.None? ==>
              a.progressRect == app.progressRect && a.prevBtn == app.prevBtn
              && a.playBtn == app.playBtn && a.nextBtn == app.nextBtn
    ensures app.track.Some? && frame.gauge.Some? ==> a.progressRect == frame.gauge.value
    ensures app.track.Some? && frame.controls.Some? ==>
              Buttons(a.prevBtn, a.playBtn, a.nextBtn) == PlaceButtons(frame.controls.value)
    ensures a.hitboxes == FrameHitboxes(app, frame)
  {
    var withTrack :=
      if app.track.None? then app
      else
        var a1 := match frame.gauge
          case Some(g) => app.(progressRect := g)
          case None => app;
        match frame.controls
        case Some(c) =>
          var b := PlaceButtons(c);
          a1.(prevBtn := b.prev, playBtn := b.play, nextBtn := b.next)
        case None => a1;
    withTrack.(hitboxes := FrameHitboxes(app, frame))
  }
}
